=== FILE: README.md ===
# Minibase buffer manager in Dafny

This project models `BufMgr`, the buffer manager of Minibase. It keeps a
fixed array of frames, each able to hold one disk page. A frame descriptor
per frame records:

- `valid`: the frame holds a page;
- `dirty`: the page has changed since it was read;
- the pin count;
- the reference bit;
- the page id.

A hash map, the directory, goes from page id to frame. Callers pin a page
to use it and unpin it when done. Pinning a page that is not resident
picks a victim frame by clock replacement. A dirty victim is written back
before the frame is reused.

The model is functional. The pool is an immutable value (`FrameTable.Pool`),
and each public operation is a function from a pool and a disk to the new
pool, the new disk and a result (`BufferManager.Step`). A Java exception
becomes an `Err` carrying the state as it stood when the exception was
thrown. So a state the source has already changed is kept, exactly as the
Java object would keep it.

The disk manager is abstract (`DiskStore`). It is a map of page contents,
a set of allocated ids, and the trace of writes in order. Which ids
`allocate_page` hands out is a parameter of `NewPage`.

Modules:

- `Common`: page ids, the `-1` sentinel (`INVALID_PAGEID`), pages as byte
  sequences, the error kinds, and `Result`.
- `DiskStore`: the disk, read/write/allocate/deallocate, and `WriteAll`, a
  sequence of writes that stops at the first failure.
- `FrameTable`: the frame descriptors, the pool, and the constructor. It
  defines two invariants:
  - `Wf`: the shape of the arrays;
  - `Inv`: directory consistency. Every directory entry points at a valid
    frame holding that page. Every valid frame is in the directory under its
    page id. An empty frame is clean, unpinned and has the sentinel id. A
    valid frame never holds the sentinel id.
- `Clock`: the victim selector, as a scan of at most two revolutions.
- `ClockSource`: the selector's two loops exactly as written, including
  their exit test, which can fail to end a loop (see Findings).
- `BufferManager`: `pinPage`, `unpinPage`, `newPage`, `freePage`,
  `flushAllFrames`, `getNumFrames` and `getNumUnpinned`.
- `BufferManagerProps`: invariant preservation and properties relating the
  operations to each other and to the disk.
- `Runs`: sequences of calls from the constructor on, and two concrete
  scenarios.

Behaviour of the code worth noting, some of it at odds with the class's
documentation comments. Where the two disagree, the model follows the code:

- `unpinPage` sets the dirty flag to the argument, overwriting it (lines
  275-278). It does not OR the argument into the flag. Unpinning a dirty
  page "clean" therefore loses the need to write it back
  (`BufferManagerProps.DirtyFlagOverwritten`).
- `newPage` pins the new page with `PIN_DISKIO` (line 301). The comment says
  `PIN_MEMCPY` (line 287), so `firstpg` is never read
  (`BufferManagerProps.NewPageIgnoresFirstPage`).
- The second revolution of the victim scan does not take an empty frame
  (line 468). Only the first revolution does (line 438).
- pinPage with `PIN_MEMCPY` leaves the frame clean (line 199). So a page
  copied in and unpinned clean is dropped on eviction without being written.
  Pinning it again from disk returns the disk's older contents
  (`Runs.MemCpyPageLostOnEviction`). Contents survive eviction only if the
  caller unpins dirty (`BufferManagerProps.EvictedDirtyPageReadsBack`).
- Evicting a frame clears valid, dirty, pin count and page id, but not the
  reference bit (lines 136-148). Loading a page sets valid, clean and one
  more pin, but leaves the reference bit as it was.

## Model

| member | source | states |
|---|---|---|
| FrameTable.Init | bufmgr.java:50-70 | The constructor gives `n` empty, unpinned frames, an empty directory and lastVictim 0, and the result satisfies directory consistency |
| Clock.Scan | bufmgr.java:437-481 | The scan only clears reference bits of valid unpinned frames; the frame it hands out is empty or unpinned with a clear reference bit; its only error is NoVictim. Which frame it takes, and which bits it clears, is stated by `Clock.ScanTakesFirst` and `Clock.ScanTakesNone` |
| Clock.Offset | bufmgr.java:425-458 | The hand, started at `start` and advanced with wrap-around, is over frame `j` at step `Offset(j)` and again one revolution later |
| Clock.ShiftTakes | bufmgr.java:449-458 | Passing over the frame at one step (clearing its bit if it is valid and unpinned) and moving on leaves unchanged what the hand sees at every later step |
| Clock.ShiftPassed | bufmgr.java:449-458 | The same pass leaves the same frame table as the closed-form description of all the frames passed |
| Clock.ScanTakesFirst | bufmgr.java:437-481 | Clock order: if step m is the first step at which the hand, going round from `start`, meets an empty frame on the first revolution or an unpinned frame with a clear bit (cleared a revolution earlier counts), the scan returns that frame; exactly the valid unpinned frames passed before it have their bits cleared and nothing else changes |
| Clock.ScanTakesNone | bufmgr.java:437-484 | If no step takes a frame, the scan fails after two revolutions, having cleared the bits of exactly the valid unpinned frames it passed |
| Clock.ScanInHandOrder | bufmgr.java:437-481 | The whole scan from step 0 returns the first frame the hand takes, whichever step that is |
| Clock.ScanFailsIffAllPinned | bufmgr.java:437-484 | Two revolutions find nothing exactly when every frame is valid and pinned, and then nothing was changed |
| Clock.ScanFinds | bufmgr.java:437-481 | An empty frame not yet passed, or an unpinned frame not yet passed or passed once with its bit cleared, guarantees a victim |
| Clock.ScanAllPinned | bufmgr.java:437-484 | With every frame pinned both revolutions change nothing and the scan ends in the exception |
| Clock.PickVictim | bufmgr.java:422-485 | pickVictim: the victim is the first frame the hand takes going round from the frame after lastVictim (the first empty frame on the first revolution, or unpinned frame with a clear bit), and becomes lastVictim; exactly the valid unpinned frames passed before it lose their reference bits; it fails (IllegalStateException) exactly when all frames are valid and pinned, leaving the pool as it was |
| Clock.PickVictimSafe | bufmgr.java:444-452 | Under directory consistency the victim has pin count 0 and the scan keeps the directory consistent |
| ClockSource.Loops | bufmgr.java:437-484 | The source's two loops, iteration by iteration, with a fuel bound: a frame they pick is evictable, and whether they pick or throw they have only cleared reference bits of valid unpinned frames |
| ClockSource.PickVictimAsWritten | bufmgr.java:422-485 | pickVictim as written, starting after lastVictim: the same guarantees as its loops |
| ClockSource.LoopsMatchScan | bufmgr.java:425-484 | When lastVictim is not the last frame, each of the source's loops ends after exactly one revolution and the loops agree step by step with the two-revolution scan |
| ClockSource.AsWrittenAgreesBelowLastFrame | bufmgr.java:422-485 | When lastVictim is below N-1, pickVictim as written returns the same victim and frame table as the corrected scan, or throws exactly when the scan fails |
| ClockSource.ExitTestUnreachable | bufmgr.java:455-462 | After wrapping, the cursor never equals N, so the test `i == lastVictim + 1` is never true when lastVictim is N-1 |
| ClockSource.LoopsSpin | bufmgr.java:437-463 | With every frame pinned and lastVictim N-1, the first loop never ends, however many iterations it is given |
| ClockSource.AsWrittenNeverReturns | bufmgr.java:422-485 | The defect: with lastVictim N-1 and every frame pinned, pickVictim as written neither returns nor throws, while the corrected scan reports NoVictim |
| ClockSource.LoopsMatchScanAtLastFrame | bufmgr.java:437-463 | With lastVictim N-1, if a victim exists the first loop finds the same one as the corrected scan within two revolutions |
| ClockSource.AsWrittenAgreesOnSuccess | bufmgr.java:422-485 | Whenever a victim exists, pickVictim as written picks the same victim and leaves the same frame table as the corrected scan |
| DiskStore.ReadPage | bufmgr.java:169 | Reading succeeds exactly for allocated ids and returns the stored contents |
| DiskStore.WritePage | bufmgr.java:130 | A write to an allocated id is recorded and reads back; other ids read as before; an unallocated id is an error |
| DiskStore.AllocatePages | bufmgr.java:300 | Allocating a run of size at least 1 adds exactly the ids `first .. first+size-1`; otherwise it fails with the allocator's own error, or BadRunSize for a size below 1 |
| DiskStore.RunIds | bufmgr.java:300 | The ids of a run are exactly `first <= k < first + size` |
| DiskStore.DeallocatePage | bufmgr.java:336 | Deallocating an allocated id removes it; anything else is an error with the disk unchanged |
| DiskStore.WriteAll | bufmgr.java:350-362 | A sequence of writes succeeds exactly when every id is allocated, and then records all of them in order. Otherwise it records exactly the writes before the first unallocated id, and fails with UnknownPage of that id |
| DiskStore.WriteAllAppend | bufmgr.java:350-362 | Writing `a + b` is writing `a` and then, if that succeeded, `b` |
| DiskStore.WriteAllOne | bufmgr.java:360 | One write through the sequence is one write_page call |
| DiskStore.WriteAllStopsAtFailure | bufmgr.java:350-362 | Once a sequence of writes has failed, any longer sequence that starts with it fails the same way, with the same disk |
| DiskStore.WriteAllFailsAfter | bufmgr.java:350-362 | If a prefix went through and the next write fails, every longer sequence ends there, with that write's error and the disk the prefix left |
| FrameTable.DirectoryIff | bufmgr.java:107-226 | Under directory consistency a page is in frame i exactly when the directory maps its id to i |
| FrameTable.InvFrameFacts | bufmgr.java:136-148 | Under directory consistency a dirty frame is valid, an empty frame is unpinned, and a pinned frame's page is in the directory |
| FrameTable.InvIgnoresRefbits | bufmgr.java:450-452 | Changing reference bits alone keeps directory consistency |
| BufferManager.PinHit | bufmgr.java:226-237 | Pinning a resident page adds one pin and returns the frame's contents; PIN_MEMCPY on a pinned page is refused (IllegalArgumentException) with nothing changed |
| BufferManager.Evict | bufmgr.java:129-149 | A dirty victim is written back under its old id first, and reads back while every other disk page keeps its contents; that write can fail only for an unallocated id, and then nothing has changed. Otherwise the frame is reset (not valid, clean, unpinned, sentinel id, reference bit kept), its directory entry is removed, and nothing else changes |
| BufferManager.Install | bufmgr.java:160-220 | Filling the frame: it fails only for PIN_DISKIO on an unallocated page, leaving everything as it was. Otherwise the frame holds `pageno`, valid, clean, with one more pin, and is mapped from it; DISKIO returns the disk's contents, MEMCPY the caller's page, NOOP the frame's old contents. Any other mode fills nothing |
| BufferManager.PinMiss | bufmgr.java:107-220 | The full miss path: no victim means IllegalStateException with nothing changed; otherwise the victim becomes lastVictim, a dirty victim is written back first and reads back while every other disk page keeps its contents, the frame holds the new page with one pin, and the directory trades the old id for the new one |
| BufferManager.PinPage | bufmgr.java:100-241 | After a successful pin in one of the three modes the page is resident with exactly one more pin than before (one, if it was not resident), and the result is its frame's contents; a failed pin leaves the page's residency as it was and fails only with one of the two documented exceptions or a disk error |
| BufferManager.UnpinPage | bufmgr.java:252-283 | Fails exactly when the page is not resident or unpinned; otherwise one pin less, the reference bit set when the count reaches 0, the dirty flag set to the argument, all other frames unchanged |
| BufferManager.NewPage | bufmgr.java:296-310 | A failed allocation changes nothing and reaches the caller as the allocator's own error (BadRunSize for a size below 1); otherwise the run is allocated (and stays allocated if the pin fails). On success the first id is returned resident and pinned, together with what `firstpg` then holds, the frame's contents. Failures are NoVictim or a disk error |
| BufferManager.Unmap | bufmgr.java:321-331 | A resident page's frame becomes not valid and clean with the sentinel id, keeping its pin count and reference bit, and its directory entry goes; a non-resident page changes nothing |
| BufferManager.FreePage | bufmgr.java:319-341 | Freeing a pinned page is refused with nothing changed; otherwise the page leaves the directory and its frame is reset, then deallocation succeeds exactly for allocated ids |
| BufferManager.PendingMembers | bufmgr.java:350-361 | Every frame with a real id that is dirty has its write (id and contents) pending, every pending write is such a frame's, and there are as many pending writes as such frames |
| BufferManager.PendingCount | bufmgr.java:350-361 | There are exactly as many pending writes as frames with a real id that are dirty |
| BufferManager.PendingPrefix | bufmgr.java:350 | The writes of the first k frames are a prefix of those of the first m |
| BufferManager.FlushOkIff | bufmgr.java:350-362 | Flushing succeeds exactly when every dirty frame with a real id holds an allocated page |
| BufferManager.FlushStepSkips | bufmgr.java:353-358 | A frame that is clean or holds the sentinel adds no write |
| BufferManager.FlushStepWrites | bufmgr.java:353-361 | A frame that is dirty with a real id, whose write goes through, extends the sweep by exactly that write |
| BufferManager.PendingNext | bufmgr.java:350-361 | The write of a dirty frame with a real id comes right after the writes of the frames before it, within the whole sweep |
| BufferManager.FlushStepFails | bufmgr.java:360 | Once a frame's write fails, the outcome of the whole flush is that failure, with the disk as the earlier writes left it |
| BufferManager.FlushOutcome | bufmgr.java:348-366 | The outcome of the sweep: allocation is unchanged; it succeeds exactly when each dirty frame's id is allocated, and then the disk has recorded all pending writes |
| BufferManager.FlushAllFrames | bufmgr.java:348-366 | The loop issues exactly the pending writes, in order; it succeeds exactly when each dirty frame's id is allocated; allocation is unchanged |
| BufferManager.NumFrames | bufmgr.java:388-392 | The frame count is positive |
| BufferManager.NumUnpinned | bufmgr.java:398-406 | The count equals the number of frames with pin count 0, and is at most the frame count |
| BufferManager.VictimOf | bufmgr.java:122 | The victim pinPage uses is the one pickVictim records as lastVictim |
| BufferManagerProps.EvictPreservesInv | bufmgr.java:129-149 | Evicting keeps directory consistency and leaves the frame empty |
| BufferManagerProps.InstallPreservesInv | bufmgr.java:160-220 | Loading a non-resident page other than the sentinel -1 into an empty frame keeps directory consistency |
| BufferManagerProps.PinPagePreservesInv | bufmgr.java:100-241 | pinPage keeps directory consistency |
| BufferManagerProps.UnpinPagePreservesInv | bufmgr.java:252-283 | unpinPage keeps directory consistency |
| BufferManagerProps.FreePagePreservesInv | bufmgr.java:319-341 | freePage keeps directory consistency |
| BufferManagerProps.NewPagePreservesInv | bufmgr.java:296-310 | newPage keeps directory consistency |
| BufferManagerProps.PinThenUnpin | bufmgr.java:226-278 | Pinning a resident page and unpinning it restores the pool except that the dirty flag becomes the argument and the reference bit is set if the count had been 0 |
| BufferManagerProps.DirtyFlagOverwritten | bufmgr.java:275-278 | Unpinning dirty, pinning again and unpinning clean leaves the frame clean: the earlier change is no longer marked for write-back |
| BufferManagerProps.PinFailsWhenPoolExhausted | bufmgr.java:122-125 | With every frame pinned, pinning a non-resident page throws IllegalStateException and changes neither pool nor disk |
| BufferManagerProps.FreePinnedRejected | bufmgr.java:321-325 | Freeing a pinned page is refused with nothing changed, and the page is still resident |
| BufferManagerProps.NoUnpinnedIffNoVictim | bufmgr.java:398-406 | getNumUnpinned is 0 exactly when pickVictim throws |
| BufferManagerProps.NewPageIgnoresFirstPage | bufmgr.java:296-310 | newPage's result does not depend on `firstpg` |
| BufferManagerProps.NewPageReadsDisk | bufmgr.java:296-310 | After newPage of a page not yet resident, its frame, and the page returned to the caller, hold what the disk holds for it |
| BufferManagerProps.FlushableIsValidDirty | bufmgr.java:353 | Under directory consistency the flush test (real id and dirty) means valid and dirty |
| BufferManagerProps.InvFlushIdsDistinct | bufmgr.java:353 | Under directory consistency the frames flushAllFrames writes carry distinct ids |
| BufferManagerProps.DistinctIds | bufmgr.java:184-211 | Under directory consistency two valid frames never hold the same page |
| BufferManagerProps.FlushWritesLand | bufmgr.java:350-362 | After a successful flush of the first n frames, every flushed page reads back as its frame's contents |
| BufferManagerProps.FlushMakesDiskCurrent | bufmgr.java:343-366 | After a successful flushAllFrames every valid dirty page reads back from disk as its frame's contents |
| BufferManagerProps.EvictedDirtyPageReadsBack | bufmgr.java:129-169 | No lost update: once a dirty page is evicted, pinning it again with DISKIO returns the contents it had before eviction |
| Runs.Apply | bufmgr.java:100-366 | One public call keeps the pool's shape and its frame count |
| Runs.Run | bufmgr.java:100-366 | Any sequence of calls keeps the pool's shape and its frame count |
| Runs.ApplyPreservesInv | bufmgr.java:100-366 | Each public call that does not pin the sentinel keeps directory consistency |
| Runs.InvariantAlongRun | bufmgr.java:100-366 | Directory consistency holds after every sequence of such calls |
| Runs.ConstructedPoolStaysConsistent | bufmgr.java:50-392 | From the constructor on, directory consistency holds after every run of calls that never pins the sentinel id, and getNumFrames returns the constructor's argument |
| Runs.NoOpMissIntoClean | bufmgr.java:107-220 | A PIN_NOOP miss into a clean victim resets and reloads the frame, swaps the directory entry and leaves the disk alone |
| Runs.ClockStep1 | bufmgr.java:425-441 | In a new three-frame pool the first pin lands in frame 1, after lastVictim 0 |
| Runs.ClockStep2 | bufmgr.java:425-441 | The second pin lands in frame 2 |
| Runs.ClockStep3 | bufmgr.java:425-441 | The third pin wraps to frame 0 |
| Runs.ClockStep4 | bufmgr.java:256-279 | Unpinning the page in frame 0 leaves it unpinned with its reference bit set |
| Runs.ClockStep5 | bufmgr.java:437-481 | The next miss passes frames 1 and 2, clears frame 0's bit, and picks frame 0 on the second revolution |
| Runs.ClockFill | bufmgr.java:100-241 | Three pins of new pages fill a three-frame pool in frames 1, 2 and 0 |
| Runs.ClockFillRest | bufmgr.java:100-241 | The second and third of those pins fill frames 2 and 0 |
| Runs.ClockReplace | bufmgr.java:100-283 | Unpinning page 12 and pinning page 13 puts page 13 in frame 0 |
| Runs.ClockScenario | bufmgr.java:422-485 | The whole clock run: page 13 replaces page 12 in frame 0, lastVictim is 0, nothing is written |
| Runs.LostStep1 | bufmgr.java:190-202 | In a one-frame pool, pinning page 5 with PIN_MEMCPY copies the caller's page into the frame and leaves it clean |
| Runs.LostStep2 | bufmgr.java:256-279 | Unpinning it clean leaves it unpinned, clean, with its reference bit set |
| Runs.LostStep3 | bufmgr.java:122-149 | Pinning page 6 takes that frame on the second revolution and writes nothing, since the frame is clean |
| Runs.LostStep4 | bufmgr.java:256-279 | Unpinning page 6 frees the frame again |
| Runs.LostStep5 | bufmgr.java:160-187 | Pinning page 5 with PIN_DISKIO returns what the disk holds for it |
| Runs.LostRun | bufmgr.java:100-283 | The four calls of the lost-update run end with page 6 unpinned in the only frame, page 5 gone, and nothing written |
| Runs.LostRunRest | bufmgr.java:100-283 | The last three of those calls |
| Runs.MemCpyPageLostOnEviction | bufmgr.java:190-202 | The no-loss round trip fails for copied pages: pin page 5 with PIN_MEMCPY and contents `b`, unpin clean, let page 6 take the frame, pin page 5 from disk, and the result is the old `a`, not `b`; nothing was written |
| Runs.PinningSentinelBreaksDirectory | bufmgr.java:136-145 | Pinning page id -1 and then another page leaves a valid frame holding -1 that is missing from the directory |

## Left out

- Console tracing (`System.out.println`) is not modelled; it changes no state.
- The disk manager's internals are not part of this model. `DiskStore` is an abstract disk, and the run of ids `allocate_page` grants is a parameter (`grant`) of `NewPage`.
- DiskStore.ReadPage: the abstract disk refuses exactly the ids that are not allocated. The real disk manager's own validity checks are not part of this model. Wherever `read_page`, `write_page` or `deallocate_page` would throw, the model returns an error at the same point.
- `Page` objects, and the aliasing that `setPage`/`setData` create between `mempage` and a frame, are modelled as immutable values. The result of a pin is the contents the caller's page ends up with.
- `flushPage` (lines 373-383) is not modelled. It looks the directory up with a `PageId` object where the keys are `Integer`s, so its behaviour depends on Java's `HashMap` and boxing rather than on the buffer manager's logic.
- The try/catch blocks that only rethrow (lines 119-125, 299-306, 335-339) are not modelled separately; they are the identity on exceptions.
- Thread safety and concurrent callers are not modelled; the class has no synchronisation.
- Java `int` overflow of the pin count is not modelled. Pin counts are unbounded naturals.
- FrameTable.Init: requires at least one frame. With zero frames the Java constructor succeeds, but every later `pinPage` of a new page indexes an empty array.
- `FrameDesc` and `GlobalConst` are not part of this model. `INVALID_PAGEID` is taken as -1, the value line 145 writes. A new `FrameDesc` is taken to be an empty frame: not valid, clean, unpinned, reference bit clear, sentinel id.
- BufferManagerProps.PinPagePreservesInv: requires the page id not to be the sentinel -1. Pinning -1 makes directory consistency false (`Runs.PinningSentinelBreaksDirectory`).
- BufferManagerProps.NewPagePreservesInv: requires a granted id other than -1, for the same reason.
- Runs.InvariantAlongRun: covers only runs whose calls never pin the sentinel id, for the same reason.
- Runs.ConstructedPoolStaysConsistent: covers only runs of calls that never pin the sentinel id and whose newPage allocations never grant it (`Runs.Sane`), for the same reason.
- Runs.ApplyPreservesInv: covers only such calls (`Runs.Sane`), for the same reason.
- BufferManager.PinMiss: uses the corrected victim scan (`Clock.PickVictim`). With lastVictim N-1 and every frame pinned, the source's pinPage never returns (see Findings), where this member reports NoVictim.
- BufferManager.PinPage: uses the corrected victim scan, as `PinMiss` does. Its NoVictim case does not terminate in the source when lastVictim is N-1.
- BufferManager.NewPage: uses the corrected victim scan through its pin (line 301). Its NoVictim case does not terminate in the source when lastVictim is N-1.
- BufferManagerProps.PinFailsWhenPoolExhausted: states the corrected behaviour. With lastVictim N-1 the source's pinPage loops forever instead of throwing IllegalStateException.
- BufferManagerProps.NoUnpinnedIffNoVictim: relates getNumUnpinned to the corrected scan. With lastVictim N-1 the source's pickVictim loops forever instead of failing.
- BufferManager.PinPage: for the mode value that matches none of the three constants, the contract says only what the error cases are. The behaviour itself is stated by `PinMiss` and `Install`.
- BufferManager.NumFrames: states positivity only. Its equality with the constructor's argument is `Runs.ConstructedPoolStaysConsistent`.

## Findings

| source | as written | input that shows it | evidently intended | confidence | as-written member | corrected member |
|---|---|---|---|---|---|---|
| bufmgr.java:460-478 | Each revolution of pickVictim ends when `i == lastVictim + 1`, checked after `i` wraps to 0 at the end of the array. When lastVictim is N-1 the test is never true. | A one-frame pool whose page is pinned (lastVictim is 0 = N-1) gets `pinPage` of a page not in the pool. More generally, any pool with lastVictim N-1 and every frame pinned. | Stop after two full revolutions and throw IllegalStateException ("Cannot find page to replace") | not executed | ClockSource.AsWrittenNeverReturns | Clock.PickVictim |

`ClockSource.AsWrittenNeverReturns` shows the loops still running after any number of iterations in that state. `Clock.PickVictim` stops after two revolutions and reports NoVictim exactly when every frame is pinned (`Clock.ScanFailsIffAllPinned`). Whenever a victim exists, the as-written loops choose the same one (`ClockSource.AsWrittenAgreesOnSuccess`). So the correction changes only the non-terminating case.

=== FILE: bufmgr.dfy ===
/**
 * The buffer manager's public operations (bufmgr.java): pinPage,
 * unpinPage, newPage, freePage, flushAllFrames, getNumFrames and
 * getNumUnpinned. Each operation is a transition from one pool and disk to
 * the next; a Java exception becomes an `Err` result that carries the
 * state as the exception left it.
 */
module BufferManager {
  import opened Common
  import opened DiskStore
  import opened FrameTable
  import opened Clock

  /** How pinPage fills a frame on a miss: PIN_DISKIO, PIN_MEMCPY, PIN_NOOP, or any other value. */
  datatype PinMode = DiskIO | MemCpy | NoOp | Unrecognized

  /** The pool and disk after a call, and its value or the error it raised. */
  datatype Step<T> = Step(pool: Pool, disk: Disk, result: Result<T>)

  /** A frame reset for reuse; its reference bit is left as it was. */
  function Vacated(f: Frame): Frame
  {
    f.(valid := false, dirty := false, pinCount := 0, pageId := InvalidPageId)
  }

  /** A frame just filled with page `pid`: valid, clean, one more pin. */
  function Loaded(f: Frame, pid: PageId): Frame
  {
    f.(valid := true, dirty := false, pinCount := f.pinCount + 1, pageId := pid)
  }

  // ---------------------------------------------------------------------
  // pinPage

  /** pinPage on a resident page: one more pin, unless PIN_MEMCPY meets a pinned page. */
  function PinHit(p: Pool, d: Disk, pageno: PageId, mode: PinMode): (r: Step<Page>)
    requires Wf(p) && pageno in p.mapper
    ensures Wf(r.pool) && r.disk == d
    ensures r.pool.mapper == p.mapper && r.pool.buffer == p.buffer && r.pool.lastVictim == p.lastVictim
    ensures r.result.Err? <==> mode == MemCpy && p.frames[p.mapper[pageno]].pinCount != 0
    ensures r.result.Err? ==> r.pool == p && r.result.error == PinnedOverwrite
    ensures r.result.Ok? ==>
      var v := p.mapper[pageno];
      && r.result.value == p.buffer[v]
      && r.pool.frames[v].pinCount == p.frames[v].pinCount + 1
      && r.pool.frames == p.frames[v := p.frames[v].(pinCount := p.frames[v].pinCount + 1)]
  {
    var v := p.mapper[pageno];
    if mode == MemCpy && p.frames[v].pinCount != 0 then Step(p, d, Err(PinnedOverwrite))
    else
      var f := p.frames[v];
      Step(p.(frames := p.frames[v := f.(pinCount := f.pinCount + 1)]), d, Ok(p.buffer[v]))
  }

  /** A miss, first half: write the victim back if dirty, then reset it and drop its directory entry. */
  function Evict(q: Pool, d: Disk, v: nat): (r: Step<()>)
    requires Wf(q) && v < |q.frames|
    ensures Wf(r.pool) && |r.pool.frames| == |q.frames|
    // Only the write-back can fail, and then nothing has changed.
    ensures r.result.Err? <==> q.frames[v].dirty && q.frames[v].pageId !in d.inUse
    ensures r.result.Err? ==> r.pool == q && r.disk == d && r.result.error == UnknownPage(q.frames[v].pageId)
    ensures r.result.Ok? ==>
      var f := q.frames[v]; var g := r.pool.frames[v];
      && !g.valid && !g.dirty && g.pinCount == 0 && g.pageId == InvalidPageId && g.refbit == f.refbit
      && (forall j | 0 <= j < |q.frames| && j != v :: r.pool.frames[j] == q.frames[j])
      && r.pool.mapper == q.mapper - {f.pageId}
      && r.pool.buffer == q.buffer && r.pool.lastVictim == q.lastVictim
      && (f.dirty ==>
            && r.disk.writes == d.writes + [Write(f.pageId, q.buffer[v])]
            && r.disk.inUse == d.inUse
            && ReadPage(r.disk, f.pageId) == Ok(q.buffer[v])
            && (forall pid | pid != f.pageId :: ReadPage(r.disk, pid) == ReadPage(d, pid)))
      && (!f.dirty ==> r.disk == d)
  {
    var f := q.frames[v];
    var written := if f.dirty then WritePage(d, Write(f.pageId, q.buffer[v])) else Ok(d);
    if written.Err? then Step(q, d, Err(written.error))
    else Step(q.(frames := q.frames[v := Vacated(f)], mapper := q.mapper - {f.pageId}), written.value, Ok(()))
  }

  /** A miss, second half: fill the reset frame `v` with `pageno` as the mode says. */
  function Install(q: Pool, d: Disk, v: nat, pageno: PageId, mempage: Page, mode: PinMode): (r: Step<Page>)
    requires Wf(q) && v < |q.frames|
    ensures Wf(r.pool) && |r.pool.frames| == |q.frames| && r.disk == d
    // An unrecognized mode fills nothing; a failed read leaves the frame as it was.
    ensures mode == Unrecognized ==> r == Step(q, d, Ok(mempage))
    ensures r.result.Err? <==> mode == DiskIO && pageno !in d.inUse
    ensures r.result.Err? ==> r.pool == q && r.result.error == UnknownPage(pageno)
    // Otherwise frame `v` holds `pageno`, valid, clean, with one more pin, and is mapped from it.
    ensures r.result.Ok? && mode != Unrecognized ==>
      var f := q.frames[v]; var g := r.pool.frames[v];
      && g.valid && !g.dirty && g.pinCount == f.pinCount + 1 && g.pageId == pageno && g.refbit == f.refbit
      && (forall j | 0 <= j < |q.frames| && j != v :: r.pool.frames[j] == q.frames[j] && r.pool.buffer[j] == q.buffer[j])
      && r.pool.mapper == q.mapper[pageno := v]
      && r.pool.lastVictim == q.lastVictim
      && r.pool.buffer[v] == r.result.value
    // What the frame holds, per mode.
    ensures mode == DiskIO && r.result.Ok? ==> Ok(r.result.value) == ReadPage(d, pageno)
    ensures mode == MemCpy ==> r.result == Ok(mempage)
    ensures mode == NoOp ==> r.result == Ok(q.buffer[v])
  {
    var f := q.frames[v];
    var pinned := q.(frames := q.frames[v := Loaded(f, pageno)], mapper := q.mapper[pageno := v]);
    match mode
    case DiskIO =>
      (match ReadPage(d, pageno)
       case Err(e) => Step(q, d, Err(e))
       case Ok(page) => Step(pinned.(buffer := q.buffer[v := page]), d, Ok(page)))
    case MemCpy => Step(pinned.(buffer := q.buffer[v := mempage]), d, Ok(mempage))
    case NoOp => Step(pinned, d, Ok(q.buffer[v]))
    case Unrecognized => Step(q, d, Ok(mempage))
  }

  /** The frame the clock scan picks (there is one unless every frame is pinned). */
  function VictimOf(p: Pool): (v: nat)
    requires Wf(p) && !AllPinned(p.frames)
    ensures v < |p.frames| && v == PickVictim(p).0.lastVictim
  {
    PickVictim(p).1.value
  }

  /** Whether the victim's write-back (if any) goes through. */
  predicate WriteBackOk(f: Frame, d: Disk)
  {
    !f.dirty || f.pageId in d.inUse
  }

  /**
   * pinPage on a page that is not resident: pick a victim; if it is dirty
   * write it to disk under its old id; drop its directory entry; then fill
   * it as the mode says, leaving it valid, clean, pinned once and mapped
   * from `pageno`.
   */
  function PinMiss(p: Pool, d: Disk, pageno: PageId, mempage: Page, mode: PinMode): (r: Step<Page>)
    requires Wf(p) && pageno !in p.mapper
    ensures Wf(r.pool) && |r.pool.frames| == |p.frames| && r.disk.inUse == d.inUse
    // Pool full: IllegalStateException, nothing changed.
    ensures r.result == Err(NoVictim) <==> AllPinned(p.frames)
    ensures AllPinned(p.frames) ==> r.pool == p && r.disk == d
    // The victim becomes lastVictim; every other frame keeps its descriptor and contents.
    ensures !AllPinned(p.frames) ==>
      var v := VictimOf(p);
      && r.pool.lastVictim == v
      && (forall j | 0 <= j < |p.frames| && j != v ::
            r.pool.frames[j] == PickVictim(p).0.frames[j] && r.pool.buffer[j] == p.buffer[j])
    // Write-back of a dirty victim under its old id, before anything else.
    ensures !AllPinned(p.frames) ==>
      var v := VictimOf(p); var f := p.frames[v];
      && (!WriteBackOk(f, d) ==> r == Step(PickVictim(p).0, d, Err(UnknownPage(f.pageId))))
      && (f.dirty && WriteBackOk(f, d) ==>
            && r.disk.writes == d.writes + [Write(f.pageId, p.buffer[v])]
            && ReadPage(r.disk, f.pageId) == Ok(p.buffer[v])
            && (forall pid | pid != f.pageId :: ReadPage(r.disk, pid) == ReadPage(d, pid)))
      && (!f.dirty ==> r.disk == d)
    // The frame is filled and mapped from pageno; the victim's old entry is gone.
    ensures !AllPinned(p.frames) && r.result.Ok? && mode != Unrecognized ==>
      var v := VictimOf(p); var f := p.frames[v];
      && r.pool.frames[v] == Loaded(Vacated(PickVictim(p).0.frames[v]), pageno)
      && r.pool.mapper == (p.mapper - {f.pageId})[pageno := v]
      && r.pool.buffer[v] == r.result.value
    // What the frame holds afterwards, per mode.
    ensures !AllPinned(p.frames) && WriteBackOk(p.frames[VictimOf(p)], d) ==>
      && (mode == DiskIO ==> (r.result.Ok? <==> pageno in d.inUse))
      && (mode == DiskIO && r.result.Ok? ==> Ok(r.result.value) == ReadPage(r.disk, pageno))
      && (mode == MemCpy ==> r.result == Ok(mempage))
      && (mode == NoOp ==> r.result == Ok(p.buffer[VictimOf(p)]))
      && (mode == Unrecognized ==> r.result == Ok(mempage))
    // A failed read, or an unrecognized mode, leaves the victim reset and unmapped.
    ensures !AllPinned(p.frames) && WriteBackOk(p.frames[VictimOf(p)], d) &&
            ((mode == DiskIO && r.result.Err?) || mode == Unrecognized) ==>
      var v := VictimOf(p);
      && r.pool.frames[v] == Vacated(PickVictim(p).0.frames[v])
      && r.pool.mapper == p.mapper - {p.frames[v].pageId}
      && (r.result.Err? ==> r.result.error == UnknownPage(pageno))
  {
    var (q, c) := PickVictim(p);
    if c.Err? then Step(q, d, Err(c.error))
    else
      var e := Evict(q, d, c.value);
      if e.result.Err? then Step(e.pool, e.disk, Err(e.result.error))
      else Install(e.pool, e.disk, c.value, pageno, mempage, mode)
  }

  /**
   * pinPage: afterwards the page is resident and pinned once more and the
   * value is the frame's contents; a failure adds no directory entry.
   */
  function PinPage(p: Pool, d: Disk, pageno: PageId, mempage: Page, mode: PinMode): (r: Step<Page>)
    requires Wf(p)
    ensures Wf(r.pool) && |r.pool.frames| == |p.frames| && r.disk.inUse == d.inUse
    ensures r.result.Ok? && mode != Unrecognized ==>
      && pageno in r.pool.mapper
      && r.pool.frames[r.pool.mapper[pageno]].pinCount >= 1
      && r.result.value == r.pool.buffer[r.pool.mapper[pageno]]
    ensures r.result.Ok? && mode != Unrecognized ==>
      r.pool.frames[r.pool.mapper[pageno]].pinCount ==
        (if pageno in p.mapper then p.frames[p.mapper[pageno]].pinCount else 0) + 1
    ensures r.result.Err? ==> (pageno in r.pool.mapper <==> pageno in p.mapper)
    ensures r.result.Err? ==>
      || (r.result.error == PinnedOverwrite && pageno in p.mapper && mode == MemCpy)
      || (r.result.error == NoVictim && AllPinned(p.frames))
      || r.result.error.UnknownPage?
  {
    if pageno in p.mapper then PinHit(p, d, pageno, mode)
    else PinMiss(p, d, pageno, mempage, mode)
  }

  // ---------------------------------------------------------------------
  // unpinPage

  /**
   * unpinPage: fails, changing nothing, unless the page is resident and
   * pinned; otherwise one pin fewer, the reference bit set when the count
   * reaches zero, and the dirty flag replaced by the caller's.
   */
  function UnpinPage(p: Pool, pageno: PageId, dirty: bool): (r: Result<Pool>)
    requires Wf(p)
    ensures r.Err? <==> pageno !in p.mapper || p.frames[p.mapper[pageno]].pinCount == 0
    ensures r.Err? ==> r.error == NotPinned
    ensures r.Ok? ==> Wf(r.value) && |r.value.frames| == |p.frames|
    ensures r.Ok? ==>
      var v := p.mapper[pageno]; var f := p.frames[v]; var g := r.value.frames[v];
      && r.value.mapper == p.mapper && r.value.buffer == p.buffer && r.value.lastVictim == p.lastVictim
      && g.pinCount + 1 == f.pinCount
      && g.refbit == (g.pinCount == 0 || f.refbit)
      && g.dirty == dirty
      && g.valid == f.valid && g.pageId == f.pageId
      && (forall j | 0 <= j < |p.frames| && j != v :: r.value.frames[j] == p.frames[j])
  {
    if pageno !in p.mapper || p.frames[p.mapper[pageno]].pinCount == 0 then Err(NotPinned)
    else
      var v := p.mapper[pageno];
      var f := p.frames[v];
      var count := f.pinCount - 1;
      var g := f.(pinCount := count, refbit := if count == 0 then true else f.refbit, dirty := dirty);
      Ok(p.(frames := p.frames[v := g]))
  }

  // ---------------------------------------------------------------------
  // newPage

  /**
   * newPage: allocate a run on disk, then pin its first page with
   * PIN_DISKIO (so the caller's page plays no part as input). The result
   * is the first page id and what `firstpg` holds afterwards, the frame's
   * contents. An allocation failure changes nothing; a pin failure leaves
   * the run allocated.
   */
  function NewPage(p: Pool, d: Disk, firstpg: Page, runSize: int, grant: Result<PageId>): (r: Step<(PageId, Page)>)
    requires Wf(p)
    ensures Wf(r.pool) && |r.pool.frames| == |p.frames|
    ensures (grant.Err? || runSize < 1) ==>
      r.pool == p && r.disk == d && r.result == Err(if grant.Err? then grant.error else BadRunSize(runSize))
    ensures grant.Ok? && runSize >= 1 ==>
      && r.disk.inUse == d.inUse + RunIds(grant.value, runSize)
      && (r.result.Ok? ==>
            var first := grant.value;
            && r.result.value.0 == first
            && first in r.pool.mapper
            && r.pool.frames[r.pool.mapper[first]].pinCount >= 1
            && r.result.value.1 == r.pool.buffer[r.pool.mapper[first]])
    ensures r.result.Err? && grant.Ok? && runSize >= 1 ==>
      r.result.error == NoVictim || r.result.error.UnknownPage?
  {
    match AllocatePages(d, runSize, grant)
    case Err(e) => Step(p, d, Err(e))
    case Ok(d1) =>
      var first := grant.value;
      var s := PinPage(p, d1, first, firstpg, DiskIO);
      Step(s.pool, s.disk, if s.result.Ok? then Ok((first, s.result.value)) else Err(s.result.error))
  }

  // ---------------------------------------------------------------------
  // freePage

  /** The pool with page `pageno` dropped from its frame, if it is resident. */
  function Unmap(p: Pool, pageno: PageId): (q: Pool)
    requires Wf(p)
    ensures Wf(q) && |q.frames| == |p.frames|
    ensures q.mapper == p.mapper - {pageno} && q.buffer == p.buffer && q.lastVictim == p.lastVictim
    ensures pageno !in p.mapper ==> q == p
    ensures pageno in p.mapper ==>
      var v := p.mapper[pageno]; var f := p.frames[v]; var g := q.frames[v];
      && !g.valid && !g.dirty && g.pageId == InvalidPageId
      && g.pinCount == f.pinCount && g.refbit == f.refbit
      && (forall j | 0 <= j < |p.frames| && j != v :: q.frames[j] == p.frames[j])
  {
    if pageno in p.mapper then
      var v := p.mapper[pageno];
      p.(frames := p.frames[v := p.frames[v].(valid := false, dirty := false, pageId := InvalidPageId)],
         mapper := p.mapper - {pageno})
    else p
  }

  /**
   * freePage: a resident pinned page is refused with nothing changed.
   * Otherwise a resident page's frame becomes empty and clean and loses
   * its directory entry (its contents are not written back), and then the
   * page is deallocated on disk, which fails for an unallocated id.
   */
  function FreePage(p: Pool, d: Disk, pageno: PageId): (r: Step<()>)
    requires Wf(p)
    ensures Wf(r.pool) && |r.pool.frames| == |p.frames|
    ensures r.pool.buffer == p.buffer && r.pool.lastVictim == p.lastVictim && r.disk.writes == d.writes
    ensures r.result == Err(FreePinned) <==> pageno in p.mapper && p.frames[p.mapper[pageno]].pinCount > 0
    ensures r.result == Err(FreePinned) ==> r.pool == p && r.disk == d
    ensures r.result != Err(FreePinned) ==>
      && pageno !in r.pool.mapper
      && r.pool.mapper == p.mapper - {pageno}
      && (pageno !in p.mapper ==> r.pool.frames == p.frames)
      && (pageno in p.mapper ==>
            var v := p.mapper[pageno]; var g := r.pool.frames[v];
            && !g.valid && !g.dirty && g.pageId == InvalidPageId
            && g.pinCount == p.frames[v].pinCount && g.refbit == p.frames[v].refbit
            && (forall j | 0 <= j < |p.frames| && j != v :: r.pool.frames[j] == p.frames[j]))
      && (r.result.Ok? <==> pageno in d.inUse)
      && (r.result.Ok? ==> r.disk.inUse == d.inUse - {pageno} && r.disk.pages == d.pages)
      && (r.result.Err? ==> r.disk == d && r.result.error == UnknownPage(pageno))
  {
    if pageno in p.mapper && p.frames[p.mapper[pageno]].pinCount > 0 then Step(p, d, Err(FreePinned))
    else
      var q := Unmap(p, pageno);
      match DeallocatePage(d, pageno)
      case Err(e) => Step(q, d, Err(e))
      case Ok(d1) => Step(q, d1, Ok(()))
  }

  // ---------------------------------------------------------------------
  // flushAllFrames

  /** The test flushAllFrames applies to a frame: it holds a page id and is dirty. */
  predicate Flushable(f: Frame)
  {
    f.pageId != InvalidPageId && f.dirty
  }

  /** The write of frame `i`'s contents under its page id. */
  function WriteOf(p: Pool, i: nat): Write
    requires Wf(p) && i < |p.frames|
  {
    Write(p.frames[i].pageId, p.buffer[i])
  }

  /** The writes flushAllFrames issues for frames 0 .. n-1, in frame order. */
  function Pending(p: Pool, n: nat): (ws: seq<Write>)
    requires Wf(p) && n <= |p.frames|
    ensures |ws| <= n
  {
    if n == 0 then []
    else Pending(p, n - 1) + (if Flushable(p.frames[n - 1]) then [WriteOf(p, n - 1)] else [])
  }

  /** The writes for fewer frames are a prefix of the writes for more. */
  lemma {:induction false} PendingPrefix(p: Pool, k: nat, m: nat)
    requires Wf(p) && k <= m <= |p.frames|
    ensures Pending(p, k) <= Pending(p, m)
    decreases m
  {
    if k < m {
      PendingPrefix(p, k, m - 1);
    }
  }

  /** The indices below `n` of the frames flushAllFrames writes. */
  ghost function FlushableBelow(p: Pool, n: nat): set<nat>
    requires Wf(p) && n <= |p.frames|
  {
    set i: nat | i < n && Flushable(p.frames[i])
  }

  /**
   * Exactly the flushable frames contribute a write, one each: every
   * flushable frame's write is pending, every pending write is some
   * flushable frame's, and there are as many writes as flushable frames.
   */
  lemma {:induction false} PendingMembers(p: Pool, n: nat)
    requires Wf(p) && n <= |p.frames|
    ensures forall i | 0 <= i < n && Flushable(p.frames[i]) :: WriteOf(p, i) in Pending(p, n)
    ensures forall w | w in Pending(p, n) :: exists i | 0 <= i < n :: Flushable(p.frames[i]) && w == WriteOf(p, i)
    ensures |Pending(p, n)| == |FlushableBelow(p, n)|
    decreases n
  {
    PendingCount(p, n);
    if n > 0 {
      PendingMembers(p, n - 1);
    }
  }

  /** One pending write per flushable frame. */
  lemma {:induction false} PendingCount(p: Pool, n: nat)
    requires Wf(p) && n <= |p.frames|
    ensures |Pending(p, n)| == |FlushableBelow(p, n)|
    decreases n
  {
    if n > 0 {
      PendingCount(p, n - 1);
      var below := FlushableBelow(p, n - 1);
      assert n - 1 !in below;
      if Flushable(p.frames[n - 1]) {
        assert FlushableBelow(p, n) == below + {n - 1};
      } else {
        assert FlushableBelow(p, n) == below;
      }
    } else {
      assert FlushableBelow(p, 0) == {};
    }
  }

  /** The sweep succeeds exactly when every flushable frame's page id is allocated. */
  lemma FlushOkIff(p: Pool, d: Disk)
    requires Wf(p)
    ensures WriteAll(d, Pending(p, |p.frames|)).1.Ok? <==>
      forall i | 0 <= i < |p.frames| && Flushable(p.frames[i]) :: p.frames[i].pageId in d.inUse
  {
    var ws := Pending(p, |p.frames|);
    PendingMembers(p, |p.frames|);
    if forall i | 0 <= i < |p.frames| && Flushable(p.frames[i]) :: p.frames[i].pageId in d.inUse {
      forall k | 0 <= k < |ws|
        ensures ws[k].pageId in d.inUse
      {
        assert ws[k] in ws;
      }
    } else {
      var i :| 0 <= i < |p.frames| && Flushable(p.frames[i]) && p.frames[i].pageId !in d.inUse;
      assert WriteOf(p, i) in ws;
    }
  }

  /** A frame that is not written leaves the pending writes as they were. */
  lemma FlushStepSkips(p: Pool, index: nat)
    requires Wf(p) && index < |p.frames| && !Flushable(p.frames[index])
    ensures Pending(p, index + 1) == Pending(p, index)
  {
    assert Pending(p, index) + [] == Pending(p, index);
  }

  /** A frame whose write goes through extends the prefix of the sweep by that write. */
  lemma FlushStepWrites(p: Pool, d: Disk, index: nat, cur: Disk)
    requires Wf(p) && index < |p.frames| && Flushable(p.frames[index])
    requires WriteAll(d, Pending(p, index)) == (cur, Ok(()))
    requires WritePage(cur, WriteOf(p, index)).Ok?
    ensures WriteAll(d, Pending(p, index + 1)) == (WritePage(cur, WriteOf(p, index)).value, Ok(()))
  {
    var w := WriteOf(p, index);
    assert Pending(p, index + 1) == Pending(p, index) + [w];
    WriteAllAppend(d, Pending(p, index), [w]);
    WriteAllOne(cur, w);
  }

  /** A frame whose write fails decides the outcome of the whole sweep. */
  lemma FlushStepFails(p: Pool, d: Disk, index: nat, cur: Disk)
    requires Wf(p) && index < |p.frames| && Flushable(p.frames[index])
    requires WriteAll(d, Pending(p, index)) == (cur, Ok(()))
    requires WritePage(cur, WriteOf(p, index)).Err?
    ensures WriteAll(d, Pending(p, |p.frames|)) == (cur, Err(WritePage(cur, WriteOf(p, index)).error))
  {
    PendingNext(p, index);
    WriteAllFailsAfter(d, Pending(p, index), WriteOf(p, index), Pending(p, |p.frames|));
  }

  /** The write of a flushable frame follows the writes before it in the whole sweep. */
  lemma PendingNext(p: Pool, index: nat)
    requires Wf(p) && index < |p.frames| && Flushable(p.frames[index])
    ensures Pending(p, index) + [WriteOf(p, index)] <= Pending(p, |p.frames|)
  {
    PendingPrefix(p, index + 1, |p.frames|);
    assert Pending(p, index + 1) == Pending(p, index) + [WriteOf(p, index)];
  }

  /** What the outcome of the whole sweep says about the disk and the frames. */
  lemma FlushOutcome(p: Pool, d: Disk, flushed: Disk, res: Result<()>)
    requires Wf(p) && (flushed, res) == WriteAll(d, Pending(p, |p.frames|))
    ensures flushed.inUse == d.inUse
    ensures res.Ok? <==>
      forall i | 0 <= i < |p.frames| && Flushable(p.frames[i]) :: p.frames[i].pageId in d.inUse
    ensures res.Ok? ==> flushed.writes == d.writes + Pending(p, |p.frames|)
  {
    FlushOkIff(p, d);
  }

  /**
   * flushAllFrames: for each frame in order that holds a page id and is
   * dirty, write its contents to disk under that id; the first failing
   * write ends the sweep. Nothing in the pool changes.
   */
  method FlushAllFrames(p: Pool, d: Disk) returns (flushed: Disk, res: Result<()>)
    requires Wf(p)
    ensures (flushed, res) == WriteAll(d, Pending(p, |p.frames|))
    ensures flushed.inUse == d.inUse
    ensures res.Ok? <==>
      forall i | 0 <= i < |p.frames| && Flushable(p.frames[i]) :: p.frames[i].pageId in d.inUse
    ensures res.Ok? ==> flushed.writes == d.writes + Pending(p, |p.frames|)
  {
    flushed := d;
    res := Ok(());
    var index := 0;
    while index < |p.frames|
      invariant 0 <= index <= |p.frames|
      invariant WriteAll(d, Pending(p, index)) == (flushed, Ok(()))
    {
      if Flushable(p.frames[index]) {
        var written := WritePage(flushed, WriteOf(p, index));
        if written.Err? {
          FlushStepFails(p, d, index, flushed);
          res := Err(written.error);
          break;
        }
        FlushStepWrites(p, d, index, flushed);
        flushed := written.value;
      } else {
        FlushStepSkips(p, index);
      }
      index := index + 1;
    }
    FlushOutcome(p, d, flushed, res);
  }

  // ---------------------------------------------------------------------
  // getNumFrames, getNumUnpinned

  /** getNumFrames. */
  function NumFrames(p: Pool): (n: nat)
    requires Wf(p)
    ensures n > 0
  {
    |p.frames|
  }

  /** The unpinned frames among 0 .. n-1 (empty frames included). */
  ghost function UnpinnedBelow(p: Pool, n: nat): set<nat>
    requires Wf(p) && n <= |p.frames|
  {
    set i: nat | i < n && p.frames[i].pinCount == 0
  }

  /** getNumUnpinned: how many frames have pin count zero. */
  method NumUnpinned(p: Pool) returns (count: nat)
    requires Wf(p)
    ensures count == |UnpinnedBelow(p, |p.frames|)|
    ensures count <= |p.frames|
  {
    count := 0;
    var index := 0;
    while index < |p.frames|
      invariant 0 <= index <= |p.frames|
      invariant count == |UnpinnedBelow(p, index)|
      invariant count <= index
    {
      if p.frames[index].pinCount == 0 {
        assert UnpinnedBelow(p, index + 1) == UnpinnedBelow(p, index) + {index};
        count := count + 1;
      } else {
        assert UnpinnedBelow(p, index + 1) == UnpinnedBelow(p, index);
      }
      index := index + 1;
    }
  }
}

=== FILE: bufmgr_props.dfy ===
/**
 * Properties of the buffer manager's operations that relate several calls
 * or depend on directory consistency: the invariant is preserved, pins and
 * unpins balance, evicted dirty pages reach the disk, a full pool refuses
 * new pages, and the places where the code differs from its documentation
 * comments (dirty flag overwritten on unpin, newPage reading from disk).
 */
module BufferManagerProps {
  import opened Common
  import opened DiskStore
  import opened FrameTable
  import opened Clock
  import opened BufferManager

  // ---------------------------------------------------------------------
  // Directory consistency is preserved

  lemma EvictPreservesInv(q: Pool, d: Disk, v: nat)
    requires Inv(q) && v < |q.frames|
    ensures Inv(Evict(q, d, v).pool)
    ensures Evict(q, d, v).result.Ok? ==> !Evict(q, d, v).pool.frames[v].valid
  {
    var f := q.frames[v];
    assert FrameOk(f);
    var e := Evict(q, d, v);
    if e.result.Ok? {
      assert f.valid ==> q.mapper[f.pageId] == v;
      assert !f.valid ==> f.pageId !in q.mapper;
      assert FrameOk(e.pool.frames[v]);
    }
  }

  lemma InstallPreservesInv(q: Pool, d: Disk, v: nat, pageno: PageId, mempage: Page, mode: PinMode)
    requires Inv(q) && v < |q.frames| && !q.frames[v].valid
    requires pageno !in q.mapper && pageno != InvalidPageId
    ensures Inv(Install(q, d, v, pageno, mempage, mode).pool)
  {
    var r := Install(q, d, v, pageno, mempage, mode);
    if r.pool != q {
      assert r.pool.frames[v].valid && r.pool.frames[v].pageId == pageno;
      assert r.pool.mapper == q.mapper[pageno := v];
      forall i | 0 <= i < |r.pool.frames|
        ensures FrameOk(r.pool.frames[i])
      {
        assert FrameOk(q.frames[i]);
      }
    }
  }

  /**
   * pinPage keeps the directory consistent, provided the caller does not
   * pin the sentinel page id.
   */
  lemma PinPagePreservesInv(p: Pool, d: Disk, pageno: PageId, mempage: Page, mode: PinMode)
    requires Inv(p) && pageno != InvalidPageId
    ensures Inv(PinPage(p, d, pageno, mempage, mode).pool)
  {
    if pageno in p.mapper {
      var v := p.mapper[pageno];
      assert FrameOk(p.frames[v]);
      var r := PinPage(p, d, pageno, mempage, mode);
      forall i | 0 <= i < |r.pool.frames|
        ensures FrameOk(r.pool.frames[i])
      {
        assert FrameOk(p.frames[i]);
      }
    } else if !AllPinned(p.frames) {
      PickVictimSafe(p);
      var (q, c) := PickVictim(p);
      var v := c.value;
      EvictPreservesInv(q, d, v);
      var e := Evict(q, d, v);
      if e.result.Ok? {
        InstallPreservesInv(e.pool, e.disk, v, pageno, mempage, mode);
      }
    }
  }

  /** unpinPage keeps the directory consistent. */
  lemma UnpinPagePreservesInv(p: Pool, pageno: PageId, dirty: bool)
    requires Inv(p)
    ensures UnpinPage(p, pageno, dirty).Ok? ==> Inv(UnpinPage(p, pageno, dirty).value)
  {
    var r := UnpinPage(p, pageno, dirty);
    if r.Ok? {
      var v := p.mapper[pageno];
      assert FrameOk(p.frames[v]);
      forall i | 0 <= i < |r.value.frames|
        ensures FrameOk(r.value.frames[i])
      {
        assert FrameOk(p.frames[i]);
      }
    }
  }

  /** freePage keeps the directory consistent, whether or not the disk call fails. */
  lemma FreePagePreservesInv(p: Pool, d: Disk, pageno: PageId)
    requires Inv(p)
    ensures Inv(FreePage(p, d, pageno).pool)
  {
    var r := FreePage(p, d, pageno);
    if pageno in p.mapper && r.result != Err(FreePinned) {
      var v := p.mapper[pageno];
      assert FrameOk(p.frames[v]);
      forall i | 0 <= i < |r.pool.frames|
        ensures FrameOk(r.pool.frames[i])
      {
        assert FrameOk(p.frames[i]);
      }
    }
  }

  /** newPage keeps the directory consistent when the allocator never hands out the sentinel. */
  lemma NewPagePreservesInv(p: Pool, d: Disk, firstpg: Page, runSize: int, grant: Result<PageId>)
    requires Inv(p) && (grant.Ok? ==> grant.value != InvalidPageId)
    ensures Inv(NewPage(p, d, firstpg, runSize, grant).pool)
  {
    if grant.Ok? && runSize >= 1 {
      PinPagePreservesInv(p, AllocatePages(d, runSize, grant).value, grant.value, firstpg, DiskIO);
    }
  }

  // ---------------------------------------------------------------------
  // Pins and unpins

  /**
   * A pin of a resident page followed by an unpin gives back the pin count
   * it started with; the dirty flag becomes the unpin's flag and the
   * reference bit is set if the page had been unpinned.
   */
  lemma PinThenUnpin(p: Pool, d: Disk, pageno: PageId, mempage: Page, mode: PinMode, dirty: bool)
    requires Wf(p) && pageno in p.mapper
    requires PinPage(p, d, pageno, mempage, mode).result.Ok?
    ensures
      var v := p.mapper[pageno]; var f := p.frames[v];
      UnpinPage(PinPage(p, d, pageno, mempage, mode).pool, pageno, dirty)
        == Ok(p.(frames := p.frames[v := f.(dirty := dirty, refbit := f.refbit || f.pinCount == 0)]))
  {
    var v := p.mapper[pageno];
    var f := p.frames[v];
    var s := PinPage(p, d, pageno, mempage, mode);
    assert s.pool == p.(frames := p.frames[v := f.(pinCount := f.pinCount + 1)]);
    var g := f.(dirty := dirty, refbit := f.refbit || f.pinCount == 0);
    assert s.pool.frames[v := g] == p.frames[v := g];
  }

  /**
   * The dirty flag is overwritten, not accumulated: a page unpinned dirty,
   * pinned again and unpinned clean ends up clean, so its modification
   * will not be written back on eviction.
   */
  lemma DirtyFlagOverwritten(p: Pool, d: Disk, pageno: PageId, mempage: Page)
    requires Wf(p) && pageno in p.mapper && p.frames[p.mapper[pageno]].pinCount > 0
    ensures
      var p1 := UnpinPage(p, pageno, true).value;
      var s := PinPage(p1, d, pageno, mempage, DiskIO);
      && p1.frames[p.mapper[pageno]].dirty
      && s.result.Ok?
      && UnpinPage(s.pool, pageno, false).Ok?
      && !UnpinPage(s.pool, pageno, false).value.frames[p.mapper[pageno]].dirty
  {
  }

  /**
   * A full pool: with every frame pinned, pinning a page that is not
   * resident fails with NoVictim and changes nothing.
   */
  lemma PinFailsWhenPoolExhausted(p: Pool, d: Disk, pageno: PageId, mempage: Page, mode: PinMode)
    requires Inv(p) && pageno !in p.mapper
    requires forall i | 0 <= i < |p.frames| :: p.frames[i].pinCount > 0
    ensures PinPage(p, d, pageno, mempage, mode) == Step(p, d, Err(NoVictim))
  {
    forall i | 0 <= i < |p.frames|
      ensures p.frames[i].valid
    {
      InvFrameFacts(p, i);
    }
  }

  /**
   * freePage of a resident pinned page is refused and the page stays
   * resident and pinned.
   */
  lemma FreePinnedRejected(p: Pool, d: Disk, pageno: PageId)
    requires Inv(p) && pageno in p.mapper && p.frames[p.mapper[pageno]].pinCount > 0
    ensures FreePage(p, d, pageno) == Step(p, d, Err(FreePinned))
    ensures p.frames[p.mapper[pageno]].valid && p.frames[p.mapper[pageno]].pageId == pageno
  {
  }

  /**
   * getNumUnpinned is zero exactly when the clock scan has nothing to
   * offer: under directory consistency an empty frame is unpinned, so
   * "no unpinned frame" means "every frame valid and pinned".
   */
  lemma NoUnpinnedIffNoVictim(p: Pool)
    requires Inv(p)
    ensures UnpinnedBelow(p, |p.frames|) == {} <==> PickVictim(p).1.Err?
  {
    if UnpinnedBelow(p, |p.frames|) == {} {
      forall i | 0 <= i < |p.frames|
        ensures p.frames[i].valid && p.frames[i].pinCount > 0
      {
        assert i !in UnpinnedBelow(p, |p.frames|);
        InvFrameFacts(p, i);
      }
    } else {
      var i :| i in UnpinnedBelow(p, |p.frames|);
      assert !(p.frames[i].valid && p.frames[i].pinCount > 0);
    }
  }

  // ---------------------------------------------------------------------
  // newPage

  /** newPage pins with PIN_DISKIO: the caller's page has no influence on the outcome. */
  lemma NewPageIgnoresFirstPage(p: Pool, d: Disk, a: Page, b: Page, runSize: int, grant: Result<PageId>)
    requires Wf(p)
    ensures NewPage(p, d, a, runSize, grant) == NewPage(p, d, b, runSize, grant)
  {
  }

  /** A new page that was not resident holds what the disk holds for it, not the caller's page. */
  lemma NewPageReadsDisk(p: Pool, d: Disk, firstpg: Page, runSize: int, grant: Result<PageId>)
    requires Wf(p) && grant.Ok? && grant.value !in p.mapper
    requires NewPage(p, d, firstpg, runSize, grant).result.Ok?
    ensures
      var r := NewPage(p, d, firstpg, runSize, grant);
      && r.pool.buffer[r.pool.mapper[grant.value]] == ReadPage(r.disk, grant.value).value
      && r.result.value.1 == ReadPage(r.disk, grant.value).value
  {
    var d1 := AllocatePages(d, runSize, grant).value;
    var s := PinMiss(p, d1, grant.value, firstpg, DiskIO);
    assert s.pool.mapper[grant.value] == VictimOf(p);
  }

  // ---------------------------------------------------------------------
  // Write-back

  /** Under directory consistency the sweep's test is "valid and dirty", as documented. */
  lemma FlushableIsValidDirty(p: Pool, i: nat)
    requires Inv(p) && i < |p.frames|
    ensures Flushable(p.frames[i]) <==> p.frames[i].valid && p.frames[i].dirty
  {
    assert FrameOk(p.frames[i]);
  }

  /** No two frames that flushAllFrames writes carry the same page id. */
  ghost predicate FlushIdsDistinct(p: Pool)
    requires Wf(p)
  {
    forall i, j | 0 <= i < j < |p.frames| && Flushable(p.frames[i]) && Flushable(p.frames[j]) ::
      p.frames[i].pageId != p.frames[j].pageId
  }

  lemma InvFlushIdsDistinct(p: Pool)
    requires Inv(p)
    ensures FlushIdsDistinct(p)
  {
    forall i, j | 0 <= i < j < |p.frames| && Flushable(p.frames[i]) && Flushable(p.frames[j])
      ensures p.frames[i].pageId != p.frames[j].pageId
    {
      FlushableIsValidDirty(p, i);
      FlushableIsValidDirty(p, j);
      DistinctIds(p, i, j);
    }
  }

  /** Two valid frames never hold the same page. */
  lemma DistinctIds(p: Pool, i: nat, j: nat)
    requires Inv(p) && i < |p.frames| && j < |p.frames| && i != j
    requires p.frames[i].valid && p.frames[j].valid
    ensures p.frames[i].pageId != p.frames[j].pageId
  {
  }

  /** With distinct ids, every write of a successful sweep over frames 0 .. n-1 lands. */
  lemma {:induction false} FlushWritesLand(p: Pool, d: Disk, n: nat)
    requires Wf(p) && n <= |p.frames| && FlushIdsDistinct(p)
    requires WriteAll(d, Pending(p, n)).1.Ok?
    ensures forall i | 0 <= i < n && Flushable(p.frames[i]) ::
      ReadPage(WriteAll(d, Pending(p, n)).0, p.frames[i].pageId) == Ok(p.buffer[i])
    decreases n
  {
    if n > 0 {
      var head := Pending(p, n - 1);
      var w := WriteOf(p, n - 1);
      var last := Flushable(p.frames[n - 1]);
      var tail := if last then [w] else [];
      assert Pending(p, n) == head + tail;
      WriteAllAppend(d, head, tail);
      var mid := WriteAll(d, head);
      assert mid.1.Ok?;
      FlushWritesLand(p, d, n - 1);
      var fin := WriteAll(d, Pending(p, n)).0;
      if !last {
        assert head + tail == head;
        assert fin == mid.0;
      } else {
        WriteAllOne(mid.0, w);
        assert fin == WritePage(mid.0, w).value;
        assert ReadPage(fin, w.pageId) == Ok(w.page);
        forall i | 0 <= i < n - 1 && Flushable(p.frames[i])
          ensures ReadPage(fin, p.frames[i].pageId) == Ok(p.buffer[i])
        {
          var x := p.frames[i].pageId;
          assert x != w.pageId;
          assert ReadPage(mid.0, x) == Ok(p.buffer[i]);
        }
      }
    }
  }

  /**
   * After a successful flushAllFrames the disk holds the current contents
   * of every valid dirty frame.
   */
  lemma FlushMakesDiskCurrent(p: Pool, d: Disk)
    requires Inv(p) && WriteAll(d, Pending(p, |p.frames|)).1.Ok?
    ensures forall i | 0 <= i < |p.frames| && p.frames[i].valid && p.frames[i].dirty ::
      ReadPage(WriteAll(d, Pending(p, |p.frames|)).0, p.frames[i].pageId) == Ok(p.buffer[i])
  {
    InvFlushIdsDistinct(p);
    FlushWritesLand(p, d, |p.frames|);
    forall i | 0 <= i < |p.frames| && p.frames[i].valid && p.frames[i].dirty
      ensures Flushable(p.frames[i])
    {
      FlushableIsValidDirty(p, i);
    }
  }

  /**
   * No loss through eviction: when a pin evicts a dirty page, a later
   * PIN_DISKIO of that page reads back exactly the contents it had in its
   * frame.
   */
  lemma EvictedDirtyPageReadsBack(
    p: Pool, d: Disk, pageno: PageId, mempage: Page, mode: PinMode, other: Page)
    requires Inv(p) && pageno !in p.mapper && pageno != InvalidPageId && !AllPinned(p.frames)
    requires p.frames[VictimOf(p)].dirty && WriteBackOk(p.frames[VictimOf(p)], d)
    requires PinPage(p, d, pageno, mempage, mode).result.Ok? && mode != Unrecognized
    ensures
      var v := VictimOf(p);
      var s := PinPage(p, d, pageno, mempage, mode);
      var t := PinPage(s.pool, s.disk, p.frames[v].pageId, other, DiskIO);
      t.result.Ok? ==> t.result.value == p.buffer[v]
  {
    var v := VictimOf(p);
    var evicted := p.frames[v];
    InvFrameFacts(p, v);
    var s := PinPage(p, d, pageno, mempage, mode);
    PinPagePreservesInv(p, d, pageno, mempage, mode);
    assert evicted.pageId in p.mapper;
    assert evicted.pageId != pageno;
    assert evicted.pageId !in s.pool.mapper;
    assert ReadPage(s.disk, evicted.pageId) == Ok(p.buffer[v]);
    var t := PinPage(s.pool, s.disk, evicted.pageId, other, DiskIO);
    if t.result.Ok? && !AllPinned(s.pool.frames) {
      var w := VictimOf(s.pool);
      var g := s.pool.frames[w];
      InvFrameFacts(s.pool, w);
      if g.dirty {
        assert g.pageId in s.pool.mapper;
        assert g.pageId != evicted.pageId;
      }
    }
  }
}

=== FILE: clock.dfy ===
/**
 * The victim selector: clock replacement over the frame table. The hand
 * starts at the frame after lastVictim and makes at most two revolutions.
 * On the first it takes an empty frame or an unpinned frame whose
 * reference bit is clear; on the second only the latter. An unpinned frame
 * with its reference bit set gets the bit cleared and is passed over.
 */
module Clock {
  import opened Common
  import opened FrameTable

  /** The frame under the hand `k` steps after `start` (k below two revolutions). */
  function Hand(n: nat, start: nat, k: nat): (i: nat)
    requires start < n && k < 2 * n
    ensures i < n
  {
    if start + k < n then start + k
    else if start + k < 2 * n then start + k - n
    else start + k - 2 * n
  }

  /** Where a scan starts: the frame after lastVictim, wrapping to 0 after the last frame. */
  function StartOf(p: Pool): (s: nat)
    requires Wf(p)
    ensures s < |p.frames|
  {
    if p.lastVictim + 1 == |p.frames| then 0 else p.lastVictim + 1
  }

  /** A frame the scan may hand out: empty, or unpinned and not recently used. */
  predicate Evictable(f: Frame)
  {
    !f.valid || (f.pinCount == 0 && !f.refbit)
  }

  /** Every frame holds a page and is pinned: nothing can be replaced. */
  predicate AllPinned(frames: seq<Frame>)
  {
    forall j | 0 <= j < |frames| :: frames[j].valid && frames[j].pinCount > 0
  }

  /**
   * `b` is `a` with the reference bit cleared on some valid unpinned frames
   * and nothing else changed.
   */
  ghost predicate OnlyRefbitsCleared(a: seq<Frame>, b: seq<Frame>)
  {
    && |a| == |b|
    && forall j | 0 <= j < |a| ::
         b[j] == a[j] || (a[j].valid && a[j].pinCount == 0 && b[j] == a[j].(refbit := false))
  }

  lemma OnlyRefbitsClearedKeepsRest(a: seq<Frame>, b: seq<Frame>)
    requires OnlyRefbitsCleared(a, b)
    ensures SameButRefbits(a, b)
  {
  }

  /**
   * The scan from step `k` on: the frame table afterwards (reference bits
   * cleared on the way) and the chosen frame, or NoVictim after two
   * revolutions.
   */
  function Scan(frames: seq<Frame>, start: nat, k: nat): (r: (seq<Frame>, Result<nat>))
    requires 0 < |frames| && start < |frames| && k <= 2 * |frames|
    ensures OnlyRefbitsCleared(frames, r.0)
    ensures r.1.Ok? ==> r.1.value < |frames| && Evictable(r.0[r.1.value])
    ensures r.1.Err? ==> r.1.error == NoVictim
    decreases 2 * |frames| - k
  {
    if k == 2 * |frames| then (frames, Err(NoVictim))
    else
      var i := Hand(|frames|, start, k);
      var f := frames[i];
      if (k < |frames| && !f.valid) || (f.valid && f.pinCount == 0 && !f.refbit) then
        (frames, Ok(i))
      else if f.valid && f.pinCount == 0 then
        Scan(frames[i := f.(refbit := false)], start, k + 1)
      else
        Scan(frames, start, k + 1)
  }

  /** With every frame pinned the scan changes nothing and finds nothing. */
  lemma {:induction false} ScanAllPinned(frames: seq<Frame>, start: nat, k: nat)
    requires 0 < |frames| && start < |frames| && k <= 2 * |frames|
    requires AllPinned(frames)
    ensures Scan(frames, start, k) == (frames, Err(NoVictim))
    decreases 2 * |frames| - k
  {
    if k < 2 * |frames| {
      ScanAllPinned(frames, start, k + 1);
    }
  }

  /**
   * The frame `m` steps after the start is certain to produce a victim if
   * it is empty and not yet passed, or unpinned and either not yet passed
   * or passed once and left with its reference bit clear.
   */
  lemma {:induction false} ScanFinds(frames: seq<Frame>, start: nat, k: nat, m: nat)
    requires 0 < |frames| && start < |frames| && k <= 2 * |frames| && m < |frames|
    requires
      var f := frames[Hand(|frames|, start, m)];
      || (!f.valid && k <= m)
      || (f.valid && f.pinCount == 0 && (k <= m || (k <= |frames| + m && !f.refbit)))
    ensures Scan(frames, start, k).1.Ok?
    decreases 2 * |frames| - k
  {
    var n := |frames|;
    assert k < 2 * n;
    var i := Hand(n, start, k);
    var f := frames[i];
    if (k < n && !f.valid) || (f.valid && f.pinCount == 0 && !f.refbit) {
    } else if f.valid && f.pinCount == 0 {
      ScanFinds(frames[i := f.(refbit := false)], start, k + 1, m);
    } else {
      ScanFinds(frames, start, k + 1, m);
    }
  }

  /** The scan fails exactly when every frame is valid and pinned, and then changes nothing. */
  lemma ScanFailsIffAllPinned(frames: seq<Frame>, start: nat)
    requires 0 < |frames| && start < |frames|
    ensures Scan(frames, start, 0).1.Err? <==> AllPinned(frames)
    ensures Scan(frames, start, 0).1.Err? ==> Scan(frames, start, 0).0 == frames
  {
    var n := |frames|;
    if AllPinned(frames) {
      ScanAllPinned(frames, start, 0);
    } else {
      var j :| 0 <= j < n && !(frames[j].valid && frames[j].pinCount > 0);
      var m := if j >= start then j - start else j + n - start;
      assert Hand(n, start, m) == j;
      ScanFinds(frames, start, 0, m);
    }
  }

  // ---------------------------------------------------------------------
  // Which frame the scan takes: an independent description in hand order

  /** How many steps after `start` the hand first reaches frame `j`; it is there again one revolution later. */
  function Offset(n: nat, start: nat, j: nat): (o: nat)
    requires start < n && j < n
    ensures o < n && Hand(n, start, o) == j && Hand(n, start, o + n) == j
  {
    if j >= start then j - start else j + n - start
  }

  /** The hand is over frame `j` at some step in `k .. m-1`. */
  predicate Visited(n: nat, start: nat, k: nat, m: nat, j: nat)
    requires start < n && j < n
  {
    var o := Offset(n, start, j);
    (k <= o < m) || (k <= o + n < m)
  }

  /**
   * The frame under the hand at step `m` of a scan begun at step `k`, as
   * the scan sees it: if the hand already passed it a revolution earlier
   * and it is valid and unpinned, its reference bit has been cleared.
   */
  function SeenAt(frames: seq<Frame>, start: nat, k: nat, m: nat): Frame
    requires 0 < |frames| && start < |frames| && m < 2 * |frames|
  {
    var f := frames[Hand(|frames|, start, m)];
    if k + |frames| <= m && f.valid && f.pinCount == 0 then f.(refbit := false) else f
  }

  /** The scan takes the frame it reaches at step `m`: empty on the first revolution, or unpinned with a clear bit. */
  predicate TakesAt(frames: seq<Frame>, start: nat, k: nat, m: nat)
    requires 0 < |frames| && start < |frames| && m < 2 * |frames|
  {
    var g := SeenAt(frames, start, k, m);
    (m < |frames| && !g.valid) || (g.valid && g.pinCount == 0 && !g.refbit)
  }

  /** The frame table after steps `k .. m-1` took nothing: the bits of the valid unpinned frames passed over are clear. */
  function Passed(frames: seq<Frame>, start: nat, k: nat, m: nat): (r: seq<Frame>)
    requires 0 < |frames| && start < |frames|
    ensures |r| == |frames|
  {
    seq(|frames|, j requires 0 <= j < |frames| =>
      var f := frames[j];
      if Visited(|frames|, start, k, m, j) && f.valid && f.pinCount == 0 then f.(refbit := false) else f)
  }

  /** The frame table after step `k` passes over frame `i`. */
  function PassOver(frames: seq<Frame>, i: nat): (r: seq<Frame>)
    requires i < |frames|
  {
    var f := frames[i];
    if f.valid && f.pinCount == 0 then frames[i := f.(refbit := false)] else frames
  }

  /** Passing over the frame at step `k` and starting at `k + 1` sees every later step the same way. */
  lemma ShiftTakes(frames: seq<Frame>, start: nat, k: nat, s: nat)
    requires 0 < |frames| && start < |frames| && k < s < 2 * |frames|
    ensures TakesAt(PassOver(frames, Hand(|frames|, start, k)), start, k + 1, s) == TakesAt(frames, start, k, s)
  {
    var n := |frames|;
    var i := Hand(n, start, k);
    if Hand(n, start, s) == i {
      assert s == k + n;
    }
  }

  /** ... and leaves the same frame table behind. */
  lemma ShiftPassed(frames: seq<Frame>, start: nat, k: nat, m: nat)
    requires 0 < |frames| && start < |frames| && k < m <= 2 * |frames|
    ensures Passed(PassOver(frames, Hand(|frames|, start, k)), start, k + 1, m) == Passed(frames, start, k, m)
  {
    var n := |frames|;
    var i := Hand(n, start, k);
    var a := Passed(PassOver(frames, i), start, k + 1, m);
    var b := Passed(frames, start, k, m);
    forall j | 0 <= j < n
      ensures a[j] == b[j]
    {
      var o := Offset(n, start, j);
      if j == i {
        assert o == k || o + n == k;
      } else {
        assert o != k && o + n != k;
      }
    }
  }

  /**
   * Clock order: if step `m` is the first step from `k` on at which the
   * hand takes a frame, the scan returns that frame, and the only frames
   * changed are those passed over before it, each losing its reference bit.
   */
  lemma {:induction false} ScanTakesFirst(frames: seq<Frame>, start: nat, k: nat, m: nat)
    requires 0 < |frames| && start < |frames| && k <= m < 2 * |frames|
    requires forall s | k <= s < m :: !TakesAt(frames, start, k, s)
    requires TakesAt(frames, start, k, m)
    ensures Scan(frames, start, k) == (Passed(frames, start, k, m), Ok(Hand(|frames|, start, m)))
    decreases m - k
  {
    var n := |frames|;
    if k == m {
      assert Passed(frames, start, k, m) == frames;
    } else {
      assert !TakesAt(frames, start, k, k);
      var i := Hand(n, start, k);
      var next := PassOver(frames, i);
      assert Scan(frames, start, k) == Scan(next, start, k + 1);
      var k1 := k + 1;
      forall s | k1 <= s < m
        ensures !TakesAt(next, start, k1, s)
      {
        ShiftTakes(frames, start, k, s);
      }
      ShiftTakes(frames, start, k, m);
      ShiftPassed(frames, start, k, m);
      ScanTakesFirst(next, start, k + 1, m);
    }
  }

  /** If no step from `k` on takes a frame, the scan fails after clearing the bits of every valid unpinned frame it passed. */
  lemma {:induction false} ScanTakesNone(frames: seq<Frame>, start: nat, k: nat)
    requires 0 < |frames| && start < |frames| && k <= 2 * |frames|
    requires forall s | k <= s < 2 * |frames| :: !TakesAt(frames, start, k, s)
    ensures Scan(frames, start, k) == (Passed(frames, start, k, 2 * |frames|), Err(NoVictim))
    decreases 2 * |frames| - k
  {
    var n := |frames|;
    if k == 2 * n {
      assert Passed(frames, start, k, k) == frames;
    } else {
      assert !TakesAt(frames, start, k, k);
      var i := Hand(n, start, k);
      var next := PassOver(frames, i);
      assert Scan(frames, start, k) == Scan(next, start, k + 1);
      var k1 := k + 1;
      forall s | k1 <= s < 2 * n
        ensures !TakesAt(next, start, k1, s)
      {
        ShiftTakes(frames, start, k, s);
      }
      ShiftPassed(frames, start, k, 2 * n);
      ScanTakesNone(next, start, k + 1);
    }
  }

  /** The whole scan from step 0, for every possible first taking step. */
  lemma ScanInHandOrder(frames: seq<Frame>, start: nat)
    requires 0 < |frames| && start < |frames|
    ensures forall m | 0 <= m < 2 * |frames| && TakesAt(frames, start, 0, m) &&
                       (forall s | 0 <= s < m :: !TakesAt(frames, start, 0, s)) ::
      Scan(frames, start, 0) == (Passed(frames, start, 0, m), Ok(Hand(|frames|, start, m)))
  {
    forall m | 0 <= m < 2 * |frames| && TakesAt(frames, start, 0, m) &&
               (forall s | 0 <= s < m :: !TakesAt(frames, start, 0, s))
      ensures Scan(frames, start, 0) == (Passed(frames, start, 0, m), Ok(Hand(|frames|, start, m)))
    {
      ScanTakesFirst(frames, start, 0, m);
    }
  }

  /**
   * pickVictim: the chosen frame is empty or unpinned with a clear
   * reference bit and becomes lastVictim; the only other effect is clearing
   * reference bits of valid unpinned frames passed over. It fails exactly
   * when every frame is valid and pinned, and then changes nothing.
   */
  function PickVictim(p: Pool): (r: (Pool, Result<nat>))
    requires Wf(p)
    ensures Wf(r.0) && r.0.mapper == p.mapper && r.0.buffer == p.buffer
    ensures OnlyRefbitsCleared(p.frames, r.0.frames)
    ensures r.1.Ok? ==> r.1.value < |p.frames| && r.0.lastVictim == r.1.value
    ensures r.1.Ok? ==> Evictable(r.0.frames[r.1.value])
    ensures r.1.Err? <==> AllPinned(p.frames)
    ensures r.1.Err? ==> r == (p, Err(NoVictim))
    // Clock order: the victim is the first frame the hand takes, going round
    // from the frame after lastVictim; only the frames passed before it lose
    // their reference bits.
    ensures forall m | 0 <= m < 2 * |p.frames| && TakesAt(p.frames, StartOf(p), 0, m) &&
                       (forall s | 0 <= s < m :: !TakesAt(p.frames, StartOf(p), 0, s)) ::
      r.1 == Ok(Hand(|p.frames|, StartOf(p), m)) && r.0.frames == Passed(p.frames, StartOf(p), 0, m)
  {
    var s := StartOf(p);
    var sweep := Scan(p.frames, s, 0);
    ScanFailsIffAllPinned(p.frames, s);
    ScanInHandOrder(p.frames, s);
    if sweep.1.Ok? then (p.(frames := sweep.0, lastVictim := sweep.1.value), sweep.1)
    else (p.(frames := sweep.0), sweep.1)
  }

  /**
   * Under directory consistency the victim is never pinned, and the scan
   * keeps the directory consistent.
   */
  lemma PickVictimSafe(p: Pool)
    requires Inv(p)
    ensures Inv(PickVictim(p).0)
    ensures PickVictim(p).1.Ok? ==> PickVictim(p).0.frames[PickVictim(p).1.value].pinCount == 0
  {
    var r := PickVictim(p);
    OnlyRefbitsClearedKeepsRest(p.frames, r.0.frames);
    InvIgnoresRefbits(p, r.0);
    if r.1.Ok? {
      InvFrameFacts(r.0, r.1.value);
    }
  }
}

=== FILE: clock_source.dfy ===
/**
 * pickVictim as the source writes it: two while loops whose exit test is
 * `i == lastVictim + 1`, checked after the cursor has been advanced and
 * wrapped. When lastVictim is the last frame that test can never be true,
 * so the loops are modelled with fuel: a run that uses up its fuel has not
 * left the loops.
 */
module ClockSource {
  import opened Common
  import opened FrameTable
  import opened Clock

  /** Where the source's loops end: a victim, the IllegalStateException, or still looping. */
  datatype Run =
    | Picked(frames: seq<Frame>, victim: nat)
    | Thrown(frames: seq<Frame>)
    | Running

  /** The cursor step of the loops: increment, back to 0 at the end of the array. */
  function Next(n: nat, i: nat): (j: nat)
    requires i < n
    ensures j < n
  {
    if i + 1 == n then 0 else i + 1
  }

  /**
   * The two loops, from cursor `i`; `second` tells which loop is running.
   * Only the first loop takes an empty frame.
   */
  function Loops(frames: seq<Frame>, lastVictim: nat, i: nat, second: bool, fuel: nat): (r: Run)
    requires i < |frames|
    ensures !r.Running? ==> OnlyRefbitsCleared(frames, r.frames)
    ensures r.Picked? ==> r.victim < |frames| && Evictable(r.frames[r.victim])
    decreases fuel
  {
    if fuel == 0 then Running
    else
      var f := frames[i];
      if !second && !f.valid then Picked(frames, i)
      else if f.valid && f.pinCount == 0 && !f.refbit then Picked(frames, i)
      else
        var frames' := if f.valid && f.pinCount == 0 then frames[i := f.(refbit := false)] else frames;
        var i' := Next(|frames|, i);
        if i' == lastVictim + 1 then
          if second then Thrown(frames') else Loops(frames', lastVictim, i', true, fuel - 1)
        else Loops(frames', lastVictim, i', second, fuel - 1)
  }

  /** pickVictim as written, allowed `fuel` loop iterations. */
  function PickVictimAsWritten(p: Pool, fuel: nat): (r: Run)
    requires Wf(p)
    ensures !r.Running? ==> OnlyRefbitsCleared(p.frames, r.frames)
    ensures r.Picked? ==> r.victim < |p.frames| && Evictable(r.frames[r.victim])
  {
    Loops(p.frames, p.lastVictim, StartOf(p), false, fuel)
  }

  /** The outcome of the two-revolution scan, in the loops' terms. */
  function AsRun(r: (seq<Frame>, Result<nat>)): Run
  {
    if r.1.Ok? then Picked(r.0, r.1.value) else Thrown(r.0)
  }

  /** Below the last frame, the loops take step `k` exactly as the scan does. */
  lemma {:induction false} LoopsMatchScan(frames: seq<Frame>, lastVictim: nat, k: nat, fuel: nat)
    requires 0 < |frames| && lastVictim + 1 < |frames| && k < 2 * |frames|
    requires fuel >= 2 * |frames| - k
    ensures Loops(frames, lastVictim, Hand(|frames|, lastVictim + 1, k), k >= |frames|, fuel)
         == AsRun(Scan(frames, lastVictim + 1, k))
    decreases 2 * |frames| - k
  {
    var n := |frames|;
    var s := lastVictim + 1;
    var i := Hand(n, s, k);
    var f := frames[i];
    if (k < n && !f.valid) || (f.valid && f.pinCount == 0 && !f.refbit) {
    } else {
      var frames' := if f.valid && f.pinCount == 0 then frames[i := f.(refbit := false)] else frames;
      assert Scan(frames, s, k) == Scan(frames', s, k + 1);
      if k + 1 < 2 * n {
        assert Next(n, i) == Hand(n, s, k + 1);
        LoopsMatchScan(frames', lastVictim, k + 1, fuel - 1);
      } else {
        assert Next(n, i) == s;
      }
    }
  }

  /**
   * When lastVictim is not the last frame, the source's exit test ends
   * each loop after exactly one revolution, and the loops agree with the
   * two-revolution scan: the same victim and frame table, or the exception
   * exactly when the scan fails.
   */
  lemma AsWrittenAgreesBelowLastFrame(p: Pool)
    requires Wf(p) && p.lastVictim < |p.frames| - 1
    ensures PickVictimAsWritten(p, 2 * |p.frames|) ==
      (var r := PickVictim(p);
       if r.1.Ok? then Picked(r.0.frames, r.1.value) else Thrown(p.frames))
  {
    assert Hand(|p.frames|, p.lastVictim + 1, 0) == StartOf(p);
    LoopsMatchScan(p.frames, p.lastVictim, 0, 2 * |p.frames|);
  }

  /** With lastVictim on the last frame the cursor never equals lastVictim + 1. */
  lemma ExitTestUnreachable(n: nat, i: nat)
    requires i < n
    ensures Next(n, i) != (n - 1) + 1
  {
  }

  /** Every frame pinned and the cursor never meeting the exit test: the first loop spins. */
  lemma {:induction false} LoopsSpin(frames: seq<Frame>, i: nat, fuel: nat)
    requires 0 < |frames| && i < |frames| && AllPinned(frames)
    ensures Loops(frames, |frames| - 1, i, false, fuel) == Running
    decreases fuel
  {
    if fuel > 0 {
      ExitTestUnreachable(|frames|, i);
      LoopsSpin(frames, Next(|frames|, i), fuel - 1);
    }
  }

  /**
   * The defect: with lastVictim on the last frame and every frame pinned,
   * pickVictim never returns and never throws, however long it runs
   * (for instance a one-frame pool whose page is pinned), where the
   * corrected scan reports NoVictim.
   */
  lemma AsWrittenNeverReturns(p: Pool, fuel: nat)
    requires Wf(p) && p.lastVictim == |p.frames| - 1 && AllPinned(p.frames)
    ensures PickVictimAsWritten(p, fuel) == Running
    ensures PickVictim(p).1 == Err(NoVictim)
  {
    LoopsSpin(p.frames, StartOf(p), fuel);
  }

  /**
   * With lastVictim on the last frame the first loop never exits, but when
   * a victim exists it is found within two revolutions, and it is the one
   * the corrected scan picks: the first loop's extra test for empty frames
   * never fires on the second revolution, since a whole revolution found
   * no empty frame.
   */
  lemma {:induction false} LoopsMatchScanAtLastFrame(frames: seq<Frame>, k: nat, fuel: nat)
    requires 0 < |frames| && k < 2 * |frames| && fuel >= 2 * |frames| - k
    requires forall j | 0 <= j < |frames| && j < k :: frames[j].valid
    requires Scan(frames, 0, k).1.Ok?
    ensures Loops(frames, |frames| - 1, Hand(|frames|, 0, k), false, fuel) == AsRun(Scan(frames, 0, k))
    decreases 2 * |frames| - k
  {
    var n := |frames|;
    var i := Hand(n, 0, k);
    var f := frames[i];
    if (k < n && !f.valid) || (f.valid && f.pinCount == 0 && !f.refbit) {
    } else {
      var frames' := if f.valid && f.pinCount == 0 then frames[i := f.(refbit := false)] else frames;
      assert Scan(frames, 0, k) == Scan(frames', 0, k + 1);
      assert f.valid;
      assert k + 1 < 2 * n;
      assert Next(n, i) == Hand(n, 0, k + 1);
      LoopsMatchScanAtLastFrame(frames', k + 1, fuel - 1);
    }
  }

  /** Whenever the corrected scan finds a victim, the source's loops find the same one. */
  lemma AsWrittenAgreesOnSuccess(p: Pool)
    requires Wf(p) && PickVictim(p).1.Ok?
    ensures PickVictimAsWritten(p, 2 * |p.frames|) == Picked(PickVictim(p).0.frames, PickVictim(p).1.value)
  {
    if p.lastVictim < |p.frames| - 1 {
      AsWrittenAgreesBelowLastFrame(p);
    } else {
      assert StartOf(p) == 0 == Hand(|p.frames|, 0, 0);
      LoopsMatchScanAtLastFrame(p.frames, 0, 2 * |p.frames|);
    }
  }
}

=== FILE: common.dfy ===
/**
 * Values shared by every part of the buffer manager model: page ids,
 * opaque page contents, the error kinds the manager and its disk raise,
 * and the result type that replaces Java's exceptions.
 */
module Common {

  /** A disk page number: the `pid` field of Minibase's `PageId`. */
  type PageId = int

  /**
   * The sentinel id of a frame that holds no page (INVALID_PAGEID; the
   * manager writes it as -1 when it resets a frame).
   */
  const InvalidPageId: PageId := -1

  /** Fixed-size page contents. The manager only moves them around. */
  datatype Page = Page(data: seq<bv8>)

  /** Contents of a page buffer as the constructor creates it. */
  const BlankPage: Page := Page([])

  /** Everything a call can fail with. */
  datatype Error =
    /** IllegalArgumentException from pinPage: PIN_MEMCPY on a pinned page. */
    | PinnedOverwrite
    /** IllegalStateException from pickVictim: no frame can be replaced. */
    | NoVictim
    /** IllegalArgumentException from unpinPage: not resident or not pinned. */
    | NotPinned
    /** IllegalArgumentException from freePage: the page is pinned. */
    | FreePinned
    /** Disk manager: the page id is not allocated. */
    | UnknownPage(pid: PageId)
    /** Disk manager: a run of fewer than one page was requested. */
    | BadRunSize(size: int)
    /** Disk manager: no free run of the requested length. */
    | NoSpace

  /** A value, or the error the call raised instead. */
  datatype Result<+T> = Ok(value: T) | Err(error: Error)
}

=== FILE: disk.dfy ===
/**
 * The disk manager the buffer manager calls, as an abstract store: the
 * contents written so far, the set of allocated page ids, and the trace of
 * every successful write_page call. Reads, writes and deallocations of an
 * id that is not allocated fail; which run the allocator hands out is a
 * parameter (its free-space search is not part of this model).
 */
module DiskStore {
  import opened Common

  /** One write_page call: the id written and the contents written. */
  datatype Write = Write(pageId: PageId, page: Page)

  datatype Disk = Disk(pages: map<PageId, Page>, inUse: set<PageId>, writes: seq<Write>)

  /** read_page: the stored contents; an allocated page never written reads as blank. */
  function ReadPage(d: Disk, pid: PageId): (r: Result<Page>)
    ensures r.Ok? <==> pid in d.inUse
    ensures r.Ok? && pid in d.pages ==> r.value == d.pages[pid]
    ensures r.Err? ==> r.error == UnknownPage(pid)
  {
    if pid !in d.inUse then Err(UnknownPage(pid))
    else if pid in d.pages then Ok(d.pages[pid])
    else Ok(BlankPage)
  }

  /** write_page: store the contents and record the call in the trace. */
  function WritePage(d: Disk, w: Write): (r: Result<Disk>)
    ensures r.Ok? <==> w.pageId in d.inUse
    ensures r.Ok? ==> r.value.writes == d.writes + [w]
    ensures r.Ok? ==> r.value.inUse == d.inUse
    ensures r.Ok? ==> ReadPage(r.value, w.pageId) == Ok(w.page)
    ensures r.Ok? ==> forall pid | pid != w.pageId :: ReadPage(r.value, pid) == ReadPage(d, pid)
    ensures r.Err? ==> r.error == UnknownPage(w.pageId)
  {
    if w.pageId !in d.inUse then Err(UnknownPage(w.pageId))
    else Ok(d.(pages := d.pages[w.pageId := w.page], writes := d.writes + [w]))
  }

  /** The ids of a run of `size` pages starting at `first`. */
  function RunIds(first: PageId, size: int): (s: set<PageId>)
    ensures forall k :: k in s <==> first <= k < first + size
    decreases size
  {
    if size <= 0 then {} else {first} + RunIds(first + 1, size - 1)
  }

  /**
   * allocate_page(run_size): `grant` is the allocator's answer, the first id
   * of a free run or the error it raised.
   */
  function AllocatePages(d: Disk, runSize: int, grant: Result<PageId>): (r: Result<Disk>)
    ensures r.Ok? <==> grant.Ok? && runSize >= 1
    ensures r.Ok? ==> r.value.inUse == d.inUse + RunIds(grant.value, runSize)
    ensures r.Ok? ==> grant.value in r.value.inUse
    ensures r.Ok? ==> r.value.pages == d.pages && r.value.writes == d.writes
    ensures r.Err? ==> r.error == (if grant.Err? then grant.error else BadRunSize(runSize))
  {
    if grant.Err? then Err(grant.error)
    else if runSize < 1 then Err(BadRunSize(runSize))
    else
      var first := grant.value;
      Ok(d.(inUse := d.inUse + RunIds(first, runSize)))
  }

  /** deallocate_page: release one allocated id. */
  function DeallocatePage(d: Disk, pid: PageId): (r: Result<Disk>)
    ensures r.Ok? <==> pid in d.inUse
    ensures r.Ok? ==> r.value.inUse == d.inUse - {pid} && pid !in r.value.inUse
    ensures r.Ok? ==> r.value.pages == d.pages && r.value.writes == d.writes
    ensures r.Err? ==> r.error == UnknownPage(pid)
  {
    if pid !in d.inUse then Err(UnknownPage(pid))
    else Ok(d.(inUse := d.inUse - {pid}))
  }

  /**
   * A sequence of write_page calls in order, stopping at the first one that
   * fails: the disk afterwards and whether all of them succeeded.
   */
  function WriteAll(d: Disk, ws: seq<Write>): (r: (Disk, Result<()>))
    ensures r.1.Ok? <==> forall k | 0 <= k < |ws| :: ws[k].pageId in d.inUse
    ensures r.0.inUse == d.inUse
    ensures |d.writes| <= |r.0.writes| <= |d.writes| + |ws|
    ensures r.0.writes == d.writes + ws[..|r.0.writes| - |d.writes|]
    ensures r.1.Ok? ==> r.0.writes == d.writes + ws
    ensures r.1.Err? ==> r.1.error.UnknownPage? && r.1.error.pid !in d.inUse
    ensures r.1.Err? ==>
      var j := |r.0.writes| - |d.writes|;
      && j < |ws|
      && r.1.error == UnknownPage(ws[j].pageId)
      && ws[j].pageId !in d.inUse
      && (forall k | 0 <= k < j :: ws[k].pageId in d.inUse)
    decreases |ws|
  {
    if ws == [] then (d, Ok(()))
    else
      match WritePage(d, ws[0])
      case Err(e) => (d, Err(e))
      case Ok(d1) =>
        var r := WriteAll(d1, ws[1..]);
        assert r.0.writes == d.writes + ws[..|r.0.writes| - |d.writes|] by {
          assert d1.writes == d.writes + [ws[0]];
          assert ws[..|r.0.writes| - |d.writes|] == [ws[0]] + ws[1..][..|r.0.writes| - |d1.writes|];
        }
        assert r.1.Err? ==> forall k | 1 <= k < |r.0.writes| - |d.writes| :: ws[k] == ws[1..][k - 1];
        r
  }

  /** Writing one page through WriteAll is one write_page call. */
  lemma WriteAllOne(d: Disk, w: Write)
    ensures WriteAll(d, [w]) == (var r := WritePage(d, w); if r.Err? then (d, Err(r.error)) else (r.value, Ok(())))
  {
    assert [w][0] == w;
    assert [w][1..] == [];
  }

  /** Writing a concatenation is writing the first part, then (if it worked) the second. */
  lemma {:induction false} WriteAllAppend(d: Disk, a: seq<Write>, b: seq<Write>)
    ensures WriteAll(d, a + b) ==
      (var r := WriteAll(d, a); if r.1.Err? then r else WriteAll(r.0, b))
    decreases |a|
  {
    if a == [] {
      assert a + b == b;
    } else {
      assert (a + b)[0] == a[0];
      assert (a + b)[1..] == a[1..] + b;
      match WritePage(d, a[0])
      case Err(e) =>
      case Ok(d1) =>
        WriteAllAppend(d1, a[1..], b);
    }
  }

  /** Once a sequence of writes has failed, writing more after it changes nothing. */
  lemma WriteAllStopsAtFailure(d: Disk, a: seq<Write>, b: seq<Write>)
    requires a <= b && WriteAll(d, a).1.Err?
    ensures WriteAll(d, b) == WriteAll(d, a)
  {
    assert b == a + b[|a|..];
    WriteAllAppend(d, a, b[|a|..]);
  }

  /** A write that fails right after a prefix that went through ends every longer sequence there. */
  lemma WriteAllFailsAfter(d: Disk, a: seq<Write>, w: Write, b: seq<Write>)
    requires a + [w] <= b
    requires WriteAll(d, a).1.Ok? && WritePage(WriteAll(d, a).0, w).Err?
    ensures WriteAll(d, b) == (WriteAll(d, a).0, Err(WritePage(WriteAll(d, a).0, w).error))
  {
    WriteAllAppend(d, a, [w]);
    WriteAllOne(WriteAll(d, a).0, w);
    WriteAllStopsAtFailure(d, a + [w], b);
  }
}

=== FILE: frametable.dfy ===
/**
 * The buffer manager's state: the frame table (one descriptor per frame),
 * the buffer pool (the contents of each frame), the page directory (the
 * HashMap from page id to frame index) and the clock cursor lastVictim.
 */
module FrameTable {
  import opened Common

  /** A frame descriptor (Minibase's FrameDesc). */
  datatype Frame = Frame(valid: bool, dirty: bool, pinCount: nat, refbit: bool, pageId: PageId)

  /**
   * A descriptor as `new FrameDesc()` leaves it. FrameDesc is not part of
   * this model; it is assumed to start empty: invalid, clean, unpinned,
   * reference bit clear, holding the invalid page id.
   */
  const EmptyFrame: Frame := Frame(false, false, 0, false, InvalidPageId)

  datatype Pool = Pool(
    frames: seq<Frame>,
    buffer: seq<Page>,
    mapper: map<PageId, nat>,
    lastVictim: nat)

  /**
   * The shape every pool keeps: at least one frame, a page buffer per
   * frame, the cursor and every directory entry pointing at a frame.
   */
  predicate Wf(p: Pool)
  {
    && |p.frames| > 0
    && |p.buffer| == |p.frames|
    && p.lastVictim < |p.frames|
    && (forall pid | pid in p.mapper :: p.mapper[pid] < |p.frames|)
  }

  /** An empty frame is unpinned, clean and holds the sentinel; a full one never holds the sentinel. */
  predicate FrameOk(f: Frame)
  {
    if f.valid then f.pageId != InvalidPageId
    else f.pinCount == 0 && !f.dirty && f.pageId == InvalidPageId
  }

  /**
   * Directory consistency: the directory maps exactly the ids of the valid
   * frames, each to the frame holding it.
   */
  ghost predicate Inv(p: Pool)
  {
    && Wf(p)
    && (forall pid | pid in p.mapper ::
          p.frames[p.mapper[pid]].valid && p.frames[p.mapper[pid]].pageId == pid)
    && (forall i | 0 <= i < |p.frames| && p.frames[i].valid ::
          p.frames[i].pageId in p.mapper && p.mapper[p.frames[i].pageId] == i)
    && (forall i | 0 <= i < |p.frames| :: FrameOk(p.frames[i]))
  }

  /** The directory entry for `pid` is `i` exactly when frame `i` holds `pid`. */
  lemma DirectoryIff(p: Pool, pid: PageId, i: int)
    requires Inv(p)
    ensures (pid in p.mapper && p.mapper[pid] == i) <==>
            (0 <= i < |p.frames| && p.frames[i].valid && p.frames[i].pageId == pid)
  {
  }

  /** Consequences of directory consistency: dirty implies valid, invalid implies unpinned, pinned implies mapped. */
  lemma InvFrameFacts(p: Pool, i: int)
    requires Inv(p) && 0 <= i < |p.frames|
    ensures p.frames[i].dirty ==> p.frames[i].valid
    ensures !p.frames[i].valid ==> p.frames[i].pinCount == 0
    ensures p.frames[i].pinCount > 0 ==> p.frames[i].pageId in p.mapper
  {
    assert FrameOk(p.frames[i]);
  }

  /** Two frame tables that differ at most in reference bits. */
  ghost predicate SameButRefbits(a: seq<Frame>, b: seq<Frame>)
  {
    && |a| == |b|
    && forall j | 0 <= j < |a| ::
         b[j].valid == a[j].valid && b[j].dirty == a[j].dirty &&
         b[j].pinCount == a[j].pinCount && b[j].pageId == a[j].pageId
  }

  /** Reference bits play no part in directory consistency. */
  lemma InvIgnoresRefbits(p: Pool, q: Pool)
    requires Inv(p) && SameButRefbits(p.frames, q.frames)
    requires q.mapper == p.mapper && |q.buffer| == |p.buffer| && q.lastVictim < |q.frames|
    ensures Inv(q)
  {
    forall i | 0 <= i < |q.frames|
      ensures FrameOk(q.frames[i])
    {
      assert FrameOk(p.frames[i]);
    }
  }

  /** The constructor: n empty frames, blank buffers, an empty directory, cursor at 0. */
  function Init(n: nat): (p: Pool)
    requires n > 0
    ensures Inv(p)
    ensures |p.frames| == n && p.mapper == map[] && p.lastVictim == 0
    ensures forall i | 0 <= i < n :: !p.frames[i].valid && p.frames[i].pinCount == 0
  {
    Pool(seq(n, _ => EmptyFrame), seq(n, _ => BlankPage), map[], 0)
  }
}

=== FILE: runs.dfy ===
/**
 * Sequences of calls on one buffer manager: directory consistency and the
 * frame count hold after any run that starts from the constructor, and
 * two concrete runs show clock replacement at work and what goes wrong
 * when the sentinel page id is pinned.
 */
module Runs {
  import opened Common
  import opened DiskStore
  import opened FrameTable
  import opened Clock
  import opened BufferManager
  import opened BufferManagerProps

  /** One public call and its arguments. */
  datatype Call =
    | Pin(pageno: PageId, mempage: Page, mode: PinMode)
    | Unpin(pageno: PageId, dirty: bool)
    | New(firstpg: Page, runSize: int, grant: Result<PageId>)
    | Free(pageno: PageId)
    | FlushAll

  datatype State = State(pool: Pool, disk: Disk)

  /** A call that does not ask for the sentinel page id to be made resident. */
  predicate Sane(c: Call)
  {
    match c
    case Pin(pageno, _, _) => pageno != InvalidPageId
    case New(_, _, grant) => grant.Ok? ==> grant.value != InvalidPageId
    case _ => true
  }

  /** The state after one call, whatever its result. */
  function Apply(s: State, c: Call): (t: State)
    requires Wf(s.pool)
    ensures Wf(t.pool) && |t.pool.frames| == |s.pool.frames|
  {
    match c
    case Pin(pageno, mempage, mode) =>
      var r := PinPage(s.pool, s.disk, pageno, mempage, mode); State(r.pool, r.disk)
    case Unpin(pageno, dirty) =>
      var r := UnpinPage(s.pool, pageno, dirty); if r.Ok? then State(r.value, s.disk) else s
    case New(firstpg, runSize, grant) =>
      var r := NewPage(s.pool, s.disk, firstpg, runSize, grant); State(r.pool, r.disk)
    case Free(pageno) =>
      var r := FreePage(s.pool, s.disk, pageno); State(r.pool, r.disk)
    case FlushAll =>
      State(s.pool, WriteAll(s.disk, Pending(s.pool, |s.pool.frames|)).0)
  }

  /** The state after a sequence of calls. */
  function Run(s: State, calls: seq<Call>): (t: State)
    requires Wf(s.pool)
    ensures Wf(t.pool) && |t.pool.frames| == |s.pool.frames|
    decreases |calls|
  {
    if calls == [] then s else Run(Apply(s, calls[0]), calls[1..])
  }

  lemma ApplyPreservesInv(s: State, c: Call)
    requires Inv(s.pool) && Sane(c)
    ensures Inv(Apply(s, c).pool)
  {
    match c
    case Pin(pageno, mempage, mode) => PinPagePreservesInv(s.pool, s.disk, pageno, mempage, mode);
    case Unpin(pageno, dirty) => UnpinPagePreservesInv(s.pool, pageno, dirty);
    case New(firstpg, runSize, grant) => NewPagePreservesInv(s.pool, s.disk, firstpg, runSize, grant);
    case Free(pageno) => FreePagePreservesInv(s.pool, s.disk, pageno);
    case FlushAll =>
  }

  /**
   * Directory consistency after any sequence of calls that never pins the
   * sentinel: every valid frame is mapped from its page id, nothing else
   * is mapped, empty frames are clean and unpinned.
   */
  lemma {:induction false} InvariantAlongRun(s: State, calls: seq<Call>)
    requires Inv(s.pool)
    requires forall k | 0 <= k < |calls| :: Sane(calls[k])
    ensures Inv(Run(s, calls).pool)
    decreases |calls|
  {
    if calls != [] {
      ApplyPreservesInv(s, calls[0]);
      InvariantAlongRun(Apply(s, calls[0]), calls[1..]);
    }
  }

  /** From the constructor on, every sane run keeps the directory consistent and the frame count fixed. */
  lemma ConstructedPoolStaysConsistent(n: nat, d: Disk, calls: seq<Call>)
    requires n > 0
    requires forall k | 0 <= k < |calls| :: Sane(calls[k])
    ensures Inv(Run(State(Init(n), d), calls).pool)
    ensures NumFrames(Run(State(Init(n), d), calls).pool) == n
  {
    InvariantAlongRun(State(Init(n), d), calls);
  }

  // ---------------------------------------------------------------------
  // Two concrete runs

  /**
   * A NoOp pin of a non-resident page whose victim is clean: the victim is
   * reset and loaded with the page, the directory trades the victim's old
   * id for the new one, and the disk is untouched.
   */
  lemma NoOpMissIntoClean(p: Pool, d: Disk, pageno: PageId, b: Page, v: nat)
    requires Wf(p) && pageno !in p.mapper
    requires PickVictim(p).1 == Ok(v) && !p.frames[v].dirty
    ensures
      var q := PickVictim(p).0;
      PinPage(p, d, pageno, b, NoOp) ==
        Step(q.(frames := q.frames[v := Loaded(Vacated(q.frames[v]), pageno)],
                mapper := (p.mapper - {p.frames[v].pageId})[pageno := v]),
             d, Ok(p.buffer[v]))
  {
    var q := PickVictim(p).0;
    assert q.frames[v].dirty == p.frames[v].dirty;
  }

  /** A resident page pinned once, reference bit clear. */
  function Held(pid: PageId): Frame
  {
    Frame(true, false, 1, false, pid)
  }

  function Blanks(n: nat): seq<Page>
  {
    seq(n, _ => BlankPage)
  }

  // The pools the clock run passes through.
  function Pool1(): Pool { Pool([EmptyFrame, Held(10), EmptyFrame], Blanks(3), map[10 := 1], 1) }
  function Pool2(): Pool { Pool([EmptyFrame, Held(10), Held(11)], Blanks(3), map[10 := 1, 11 := 2], 2) }
  function Pool3(): Pool { Pool([Held(12), Held(10), Held(11)], Blanks(3), map[10 := 1, 11 := 2, 12 := 0], 0) }
  function Pool4(): Pool
  {
    Pool([Frame(true, false, 0, true, 12), Held(10), Held(11)], Blanks(3), map[10 := 1, 11 := 2, 12 := 0], 0)
  }
  function Pool5(): Pool
  {
    Pool([Held(13), Held(10), Held(11)], Blanks(3), map[10 := 1, 11 := 2, 13 := 0], 0)
  }

  lemma ClockStep1(d: Disk, b: Page)
    ensures Apply(State(Init(3), d), Pin(10, b, NoOp)) == State(Pool1(), d)
  {
    var p := Init(3);
    assert p.frames == [EmptyFrame, EmptyFrame, EmptyFrame];
    assert Scan(p.frames, 1, 0) == (p.frames, Ok(1));
    NoOpMissIntoClean(p, d, 10, b, 1);
  }

  lemma ClockStep2(d: Disk, b: Page)
    ensures Apply(State(Pool1(), d), Pin(11, b, NoOp)) == State(Pool2(), d)
  {
    var p := Pool1();
    assert Scan(p.frames, 2, 0) == (p.frames, Ok(2));
    NoOpMissIntoClean(p, d, 11, b, 2);
  }

  lemma ClockStep3(d: Disk, b: Page)
    ensures Apply(State(Pool2(), d), Pin(12, b, NoOp)) == State(Pool3(), d)
  {
    var p := Pool2();
    assert Scan(p.frames, 0, 0) == (p.frames, Ok(0));
    NoOpMissIntoClean(p, d, 12, b, 0);
  }

  lemma ClockStep4(d: Disk)
    ensures Apply(State(Pool3(), d), Unpin(12, false)) == State(Pool4(), d)
  {
  }

  lemma ClockStep5(d: Disk, b: Page)
    ensures Apply(State(Pool4(), d), Pin(13, b, NoOp)) == State(Pool5(), d)
  {
    var p := Pool4();
    var f := p.frames;
    var g := f[0 := f[0].(refbit := false)];
    assert Scan(g, 1, 5) == (g, Ok(0));
    assert Scan(g, 1, 3) == Scan(g, 1, 5);
    assert Scan(f, 1, 2) == Scan(g, 1, 3);
    assert Scan(f, 1, 0) == Scan(f, 1, 2);
    NoOpMissIntoClean(p, d, 13, b, 0);
    assert (p.mapper - {12})[13 := 0] == Pool5().mapper;
  }

  /**
   * Clock replacement on three frames: pin pages 10, 11 and 12 into a new
   * pool (they land in frames 1, 2 and 0, the hand starting after frame
   * 0), unpin page 12, then pin page 13. Frame 0 is the only unpinned frame;
   * the first revolution clears its reference bit and the second picks it,
   * so page 13 replaces page 12 there and lastVictim is 0.
   */
  lemma ClockScenario(d: Disk, b: Page)
    ensures
      var s3 := Run(State(Init(3), d), [Pin(10, b, NoOp), Pin(11, b, NoOp), Pin(12, b, NoOp)]);
      var s5 := Run(s3, [Unpin(12, false), Pin(13, b, NoOp)]);
      && s3.pool.mapper == map[10 := 1, 11 := 2, 12 := 0]
      && s5.pool.mapper == map[10 := 1, 11 := 2, 13 := 0]
      && s5.pool.lastVictim == 0
      && s5.disk == d
  {
    ClockFill(d, b);
    ClockReplace(d, b);
  }

  /** The three pins of `ClockScenario` fill the pool. */
  lemma ClockFill(d: Disk, b: Page)
    ensures Run(State(Init(3), d), [Pin(10, b, NoOp), Pin(11, b, NoOp), Pin(12, b, NoOp)]) == State(Pool3(), d)
  {
    ClockStep1(d, b);
    ClockFillRest(d, b);
    var calls := [Pin(10, b, NoOp), Pin(11, b, NoOp), Pin(12, b, NoOp)];
    assert calls[1..] == [Pin(11, b, NoOp), Pin(12, b, NoOp)];
    assert Run(State(Init(3), d), calls) == Run(State(Pool1(), d), calls[1..]);
  }

  /** The second and third pins of `ClockFill`. */
  lemma ClockFillRest(d: Disk, b: Page)
    ensures Run(State(Pool1(), d), [Pin(11, b, NoOp), Pin(12, b, NoOp)]) == State(Pool3(), d)
  {
    ClockStep2(d, b);
    ClockStep3(d, b);
    var calls := [Pin(11, b, NoOp), Pin(12, b, NoOp)];
    assert Run(State(Pool1(), d), calls) == Run(State(Pool2(), d), calls[1..]);
    assert Run(State(Pool2(), d), calls[1..]) == Run(State(Pool3(), d), []);
  }

  /** The unpin and the pin of `ClockScenario` replace page 12 by page 13. */
  lemma ClockReplace(d: Disk, b: Page)
    ensures Run(State(Pool3(), d), [Unpin(12, false), Pin(13, b, NoOp)]) == State(Pool5(), d)
  {
    ClockStep4(d);
    ClockStep5(d, b);
    var more := [Unpin(12, false), Pin(13, b, NoOp)];
    assert Run(State(Pool3(), d), more) == Run(State(Pool4(), d), more[1..]);
    assert Run(State(Pool4(), d), more[1..]) == Run(State(Pool5(), d), []);
  }

  // The pools of the lost-update run: one frame, pages 5 and 6 on disk.
  function Lost1(b: Page): Pool { Pool([Held(5)], [b], map[5 := 0], 0) }
  function Lost2(b: Page): Pool { Pool([Frame(true, false, 0, true, 5)], [b], map[5 := 0], 0) }
  function Lost3(b: Page): Pool { Pool([Held(6)], [b], map[6 := 0], 0) }
  function Lost4(b: Page): Pool { Pool([Frame(true, false, 0, true, 6)], [b], map[6 := 0], 0) }

  /** The disk of the lost-update run: pages 5 and 6 allocated, both holding `a`. */
  function TwoPages(a: Page): Disk
  {
    Disk(map[5 := a, 6 := a], {5, 6}, [])
  }

  lemma LostStep1(a: Page, b: Page)
    ensures PinPage(Init(1), TwoPages(a), 5, b, MemCpy) == Step(Lost1(b), TwoPages(a), Ok(b))
  {
    var p := Init(1);
    assert p.frames == [EmptyFrame];
    assert Scan(p.frames, 0, 0) == (p.frames, Ok(0));
  }

  lemma LostStep2(a: Page, b: Page)
    ensures Apply(State(Lost1(b), TwoPages(a)), Unpin(5, false)) == State(Lost2(b), TwoPages(a))
  {
  }

  /** The page copied in is clean, so taking its frame for page 6 writes nothing. */
  lemma LostStep3(a: Page, b: Page)
    ensures Apply(State(Lost2(b), TwoPages(a)), Pin(6, b, NoOp)) == State(Lost3(b), TwoPages(a))
  {
    var p := Lost2(b);
    var g := [p.frames[0].(refbit := false)];
    assert p.frames[0 := p.frames[0].(refbit := false)] == g;
    assert Scan(g, 0, 1) == (g, Ok(0));
    assert Scan(p.frames, 0, 0) == Scan(g, 0, 1);
    NoOpMissIntoClean(p, TwoPages(a), 6, b, 0);
  }

  lemma LostStep4(a: Page, b: Page)
    ensures Apply(State(Lost3(b), TwoPages(a)), Unpin(6, false)) == State(Lost4(b), TwoPages(a))
  {
  }

  lemma LostStep5(a: Page, b: Page)
    ensures PinPage(Lost4(b), TwoPages(a), 5, b, DiskIO).result == Ok(a)
  {
    var p := Lost4(b);
    var g := [p.frames[0].(refbit := false)];
    assert p.frames[0 := p.frames[0].(refbit := false)] == g;
    assert Scan(g, 0, 1) == (g, Ok(0));
    assert Scan(p.frames, 0, 0) == Scan(g, 0, 1);
  }

  /**
   * Copying a page in does not survive eviction. pinPage with PIN_MEMCPY
   * leaves the frame clean, so when page 5 is pinned with contents `b`,
   * unpinned clean, and its frame is then taken for page 6, nothing is
   * written; pinning page 5 again from disk gives back the old `a`. A
   * round trip "pin with PIN_MEMCPY, unpin, evict, pin with PIN_DISKIO"
   * returns the copied contents only when the caller unpins dirty
   * (BufferManagerProps.EvictedDirtyPageReadsBack).
   */
  lemma MemCpyPageLostOnEviction(a: Page, b: Page)
    requires a != b
    ensures
      var d := TwoPages(a);
      var s4 := Run(State(Init(1), d), [Pin(5, b, MemCpy), Unpin(5, false), Pin(6, b, NoOp), Unpin(6, false)]);
      var last := PinPage(s4.pool, s4.disk, 5, b, DiskIO);
      && PinPage(Init(1), d, 5, b, MemCpy).result == Ok(b)
      && s4.disk.writes == []
      && last.result == Ok(a) && last.result != Ok(b)
  {
    LostStep1(a, b);
    LostRun(a, b);
    LostStep5(a, b);
  }

  /** The four calls of `MemCpyPageLostOnEviction`, from the constructor. */
  lemma LostRun(a: Page, b: Page)
    ensures Run(State(Init(1), TwoPages(a)), [Pin(5, b, MemCpy), Unpin(5, false), Pin(6, b, NoOp), Unpin(6, false)])
      == State(Lost4(b), TwoPages(a))
  {
    var d := TwoPages(a);
    LostStep1(a, b);
    LostRunRest(a, b);
    var calls := [Pin(5, b, MemCpy), Unpin(5, false), Pin(6, b, NoOp), Unpin(6, false)];
    assert calls[1..] == [Unpin(5, false), Pin(6, b, NoOp), Unpin(6, false)];
    assert Apply(State(Init(1), d), calls[0]) == State(Lost1(b), d);
    assert Run(State(Init(1), d), calls) == Run(State(Lost1(b), d), calls[1..]);
  }

  /** The last three calls of `LostRun`. */
  lemma LostRunRest(a: Page, b: Page)
    ensures Run(State(Lost1(b), TwoPages(a)), [Unpin(5, false), Pin(6, b, NoOp), Unpin(6, false)])
      == State(Lost4(b), TwoPages(a))
  {
    var d := TwoPages(a);
    LostStep2(a, b);
    LostStep3(a, b);
    LostStep4(a, b);
    var calls := [Unpin(5, false), Pin(6, b, NoOp), Unpin(6, false)];
    assert Run(State(Lost1(b), d), calls) == Run(State(Lost2(b), d), calls[1..]);
    assert Run(State(Lost2(b), d), calls[1..]) == Run(State(Lost3(b), d), calls[2..]);
    assert Run(State(Lost3(b), d), calls[2..]) == Run(State(Lost4(b), d), []);
  }

  /**
   * Why the invariant needs sane calls: pinning the sentinel id -1 into a
   * two-frame pool and then any other page evicts the still-empty frame,
   * whose reset removes the directory entry of id -1, so the frame holding
   * page -1 is no longer in the directory.
   */
  lemma PinningSentinelBreaksDirectory(d: Disk, b: Page)
    ensures
      var s1 := Apply(State(Init(2), d), Pin(InvalidPageId, b, NoOp));
      var s2 := Apply(s1, Pin(5, b, NoOp));
      && s2.pool.frames[1].valid && s2.pool.frames[1].pageId == InvalidPageId
      && InvalidPageId !in s2.pool.mapper
      && !Inv(s2.pool)
  {
    var s0 := State(Init(2), d);
    var s1 := Apply(s0, Pin(InvalidPageId, b, NoOp));
    assert Scan(s0.pool.frames, 1, 0).1 == Ok(1);
    assert s1.pool.mapper == map[InvalidPageId := 1];
    var s2 := Apply(s1, Pin(5, b, NoOp));
    assert Scan(s1.pool.frames, 0, 0).1 == Ok(0);
    assert s2.pool.frames[1] == s1.pool.frames[1];
  }
}
